=== FILE: README.md ===
# Mission board server — a Dafny model of its core

The server lets brawlers (users) create missions, join and leave their
crews, and move a mission through its lifecycle: Open, InProgress, then
Completed or Failed. It also serves dashboards and lists, authenticates
requests with a JWT taken from a bearer header or a `token` cookie, and
signs Cloudinary upload forms.

This project models that core over an in-memory database.

- `Store` holds the `missions` rows, the `crew_memberships` pairs, the
  `brawlers` rows and the next value of the id sequence.
- Each use case is a pure function from a store to a `Step`: the store
  afterwards and the result. So a write that happens before an error is
  visible in the model, as it is in the server.
- SQL comparisons on status text are written as comparisons of rendered
  text (`Display(status) == "Open"`). The contracts state them with the
  status variants, using the fact that `Display` is injective.
- Queries are modelled as filtering the set of rows, sorting by the key
  (newest first) and taking a prefix. Their contracts say which rows come
  back, each once, in what order: the `limit` newest of a described pool.

Modules follow the server's layout:

- `MissionStatuses`, `Entities`, `MissionModels`: the value objects and records.
- `Database`, `Queries`, `Listings`: the store and the query shape.
- `MissionManagement`, `CrewStore`, `MissionOperationStore`,
  `MissionViewingRepo`, `Dashboard`, `Brawlers`: the repositories.
- `MissionViewing`, `CrewOperation`, `MissionOperation`: the use cases.
- `Auth`, `Text`: the authorization middleware and the string functions it uses.
- `Cloudinary`: the upload form builder.

Where the record types and the code that uses them disagree, the model
follows the code:

- `in_progress` compares the crew with the `MAX_CREW_PER_MISSION`
  setting (default 5), not with the mission's `max_crew`. The model takes
  the cap as a parameter and proves the mission's own `max_crew` plays no
  part (`MissionOperation.StartIgnoresMaxCrew`).
- The crew and mission use cases call `view_detail` on the viewing
  repository. The repository trait declares it, but its Postgres
  implementation does not define it, and the implementation defines
  `get_one` and `get_all`, which the trait does not declare. `view_detail`
  is modelled as the use case's count-then-load read (`MissionViewing.ViewDetailIn`).
- Several structs lack columns that the use cases read or write:
  - `MissionModel`, what `view_detail` hands the use cases, has no
    `max_crew`. `join`, `leave` and `kick_member` read it
    (crew_operation.rs:66, 129, 205).
  - `MissionEntity` and `MissionModel` have no `deadline` or `duration`.
    `in_progress` reads both (mission_operation.rs:56, 78).
  - `EditMissionEntity` has `max_crew` but no `deadline` or `duration`. The
    crew use cases' status changesets write both (crew_operation.rs:77-78).
  - `AddMissionEntity` has `max_crew` but no `duration`.
    `AddMissionModel::to_entity` does not fill `max_crew`
    (mission_model.rs:40-47).

  The model's records carry every column the use cases use.
- The repository `edit` only updates a live row whose status is Open.
  Every implicit status change written through it on a mission that is not
  Open therefore fails with NotFound. The model keeps this, and the
  findings below come from it.

## Model

| member | source | states |
|---|---|---|
| MissionStatuses.Default | server/src/domain/value_objects/mission_statuses.rs:4-11 | the default status is Open |
| MissionStatuses.Display | server/src/domain/value_objects/mission_statuses.rs:13-22 | each status renders to a name that reads back as that same status |
| MissionStatuses.DisplayInjective | server/src/domain/value_objects/mission_statuses.rs:13-22 | two statuses render to the same text exactly when they are the same status, so comparing text is comparing statuses |
| MissionStatuses.DisplayRange | server/src/domain/value_objects/mission_statuses.rs:15-20 | a text is some status's name exactly when it is one of Open, InProgress, Completed, Failed |
| MissionStatuses.FromNameInverse | server/src/domain/value_objects/mission_statuses.rs:13-22 | reading a name gives a status exactly when that status renders to the name |
| Database.CrewCountAfterInsert | server/src/infrastructure/database/repositories/mission_viewing.rs:28-37 | inserting a new membership raises that mission's count by one and no other mission's |
| Database.CrewCountAfterRemove | server/src/infrastructure/database/repositories/mission_viewing.rs:28-37 | deleting an existing membership lowers that mission's count by one and no other mission's |
| Database.RowUnderOwnId | server/src/infrastructure/database/repositories/mission_viewing.rs:39-47 | in a valid store every row is stored under its own id |
| MissionManagement.ApplyEdit | server/src/infrastructure/database/repositories/mission_management.rs:36-46 | a changeset always writes the chief; each of name, status, description, max_crew, deadline and duration takes the changeset's value when it has one and keeps the row's otherwise; id, deletion flag and timestamps are kept |
| MissionManagement.Add | server/src/infrastructure/database/repositories/mission_management.rs:27-34 | an insert returns the next sequence id and adds exactly that row: live, with the record's chief, name, description, status, max_crew and duration, no deadline, created and updated now; every other row, the crew and the brawlers are left alone |
| MissionManagement.Edit | server/src/infrastructure/database/repositories/mission_management.rs:36-46 | an edit succeeds exactly when the mission is live and Open; it then applies the changeset to that row only; otherwise NotFound and nothing changes |
| MissionManagement.Remove | server/src/infrastructure/database/repositories/mission_management.rs:48-62 | a remove always reports success; it soft-deletes a live Open mission and records the caller as chief, and changes nothing otherwise |
| MissionManagement.AddIsFresh | server/src/infrastructure/database/repositories/mission_management.rs:27-34 | the new id was unused, the new mission is live with no crew, and the store constraints survive |
| MissionManagement.WritesKeepValid | server/src/infrastructure/database/repositories/mission_management.rs:36-62 | edit and remove keep the store constraints |
| MissionManagement.EditOnlyOpen | server/src/infrastructure/database/repositories/mission_management.rs:36-46 | no changeset reaches a mission that is not Open: the edit is NotFound and the store is unchanged |
| MissionModels.AddToEntity | server/src/domain/value_objects/mission_model.rs:40-49 | a create request becomes a record led by the caller, with status Open and the request's name and description |
| MissionModels.EditToEntity | server/src/domain/value_objects/mission_model.rs:57-66 | an edit request sets the caller as chief, passes name and description on, and never sets a status |
| MissionModels.AddedMissionIsOpen | server/src/domain/value_objects/mission_model.rs:40-49 | a mission created from a request is live, Open, led by the caller, without deadline or crew |
| MissionModels.UserEditKeepsStatus | server/src/domain/value_objects/mission_model.rs:57-66 | an edit request changes at most chief, name and description, and never the status, capacity, duration or deadline |
| CrewStore.JoinCrew | server/src/domain/repositories/crew_operation.rs:7 | a membership insert succeeds exactly for a new pair of an existing mission and brawler and adds just that pair; a duplicate is AlreadyJoined |
| MissionViewingRepo.CrewCounting | server/src/infrastructure/database/repositories/mission_viewing.rs:28-37 | the count always succeeds and is the number of memberships of the mission, 0 exactly when nobody is on its crew |
| MissionViewingRepo.GetOne | server/src/infrastructure/database/repositories/mission_viewing.rs:39-47 | a lookup finds exactly the live mission with that id, and is NotFound otherwise |
| MissionViewingRepo.GetAll | server/src/infrastructure/database/repositories/mission_viewing.rs:49-70 | the list holds exactly the live missions with the filter's status and a name containing the filter's text ignoring case, each once, newest first |
| MissionViewingRepo.GetOneAgreesWithGetAll | server/src/infrastructure/database/repositories/mission_viewing.rs:39-70 | in a valid store a lookup by id finds a row exactly when the unfiltered list holds it |
| MissionViewingRepo.GetAllIgnoresOwnership | server/src/infrastructure/database/repositories/mission_viewing.rs:49-70 | two filters that agree on name and status give the same list |
| MissionViewingRepo.RosterOrder | server/src/infrastructure/database/repositories/mission_viewing.rs:81-95 | the join meets each membership of the mission whose brawler exists exactly once, and nothing else |
| MissionViewingRepo.Roster | server/src/infrastructure/database/repositories/mission_viewing.rs:72-103 | line i of the roster is the line of the brawler of the i-th membership the join meets, one line per membership |
| MissionViewingRepo.GetMissionCrew | server/src/infrastructure/database/repositories/mission_viewing.rs:72-103 | the crew roster always succeeds, with exactly one line per membership whose brawler exists, line i built from the i-th membership's brawler with the 'SUCCESS' count |
| MissionViewingRepo.RosterMatchesCount | server/src/infrastructure/database/repositories/mission_viewing.rs:28-37 | in a valid store the roster has as many lines as the crew count |
| MissionViewingRepo.NoSuccessText | server/src/infrastructure/database/repositories/mission_viewing.rs:87 | no mission's status renders as 'SUCCESS' |
| MissionViewingRepo.SuccessCountAlwaysZero | server/src/infrastructure/database/repositories/mission_viewing.rs:83-89 | as written, every roster line has a success count of 0 |
| MissionViewingRepo.CompletedText | server/src/infrastructure/database/repositories/mission_viewing.rs:83-89 | counting by the text 'Completed' counts exactly the memberships in Completed missions |
| MissionViewingRepo.GetMissionCrewCompleted | server/src/infrastructure/database/repositories/mission_viewing.rs:83-89 | with the status text corrected, line i belongs to the i-th membership's brawler and its success count is that brawler's number of memberships in Completed missions |
| MissionViewing.ViewDetail | server/src/application/use_cases/mission_viewing.rs:28-39 | the detail succeeds exactly when both the count and the load do; it carries that row and count; the count's error wins |
| MissionViewing.AttachCounts | server/src/application/use_cases/mission_viewing.rs:46-54 | one model per row, in order, each with the row's count or 0 when counting failed |
| MissionViewing.Get | server/src/application/use_cases/mission_viewing.rs:41-57 | the list fails only when the listing fails; otherwise the same rows in order, with their counts or 0 |
| MissionViewing.ViewDetailIn | server/src/application/use_cases/mission_viewing.rs:28-39 | on the store the detail is found exactly for a live mission, with its row and crew count, and NotFound otherwise |
| MissionViewing.GetOverStore | server/src/application/use_cases/mission_viewing.rs:41-57 | on the store the list is exactly the repository's list, in order, each with its crew count |
| CrewOperation.StatusEditOnlySetsStatus | server/src/application/use_cases/crew_operation.rs:68-80 | the status changeset changes nothing on the row but the status |
| CrewOperation.Join | server/src/application/use_cases/crew_operation.rs:44-93 | the error for each failing check, in the code's order; a full Open mission becomes Failed with "Mission is full"; a full Failed one gives NotFound; an unknown brawler on a new pair with room is a foreign-key error with no change; success exactly when the checks pass, there is room, the pair is new and the brawler exists, adding just that pair |
| CrewOperation.Leave | server/src/application/use_cases/crew_operation.rs:95-152 | a missing mission is NotFound and an InProgress one is not leavable, with no change; when leaving is allowed the pair is deleted and the call succeeds unless the mission is Failed and was at capacity; no mission ever changes; the only errors are NotFound and not leavable |
| CrewOperation.KickMember | server/src/application/use_cases/crew_operation.rs:154-224 | only the chief kicks, never themselves, and only in an Open or Failed mission; an allowed kick deletes just that pair and succeeds unless the mission is Failed and the recount after the delete is still at capacity; the only error after the checks is NotFound; no mission ever changes |
| CrewOperation.JoinKeepsInvariants | server/src/application/use_cases/crew_operation.rs:44-93 | a join keeps the store constraints and keeps every chief out of their own crew |
| CrewOperation.LeaveKeepsInvariants | server/src/application/use_cases/crew_operation.rs:95-152 | a leave keeps the same two invariants |
| CrewOperation.KickKeepsInvariants | server/src/application/use_cases/crew_operation.rs:154-224 | a kick keeps the same two invariants |
| CrewOperation.JoinKeepsCapacity | server/src/application/use_cases/crew_operation.rs:66-90 | no join takes a mission past its capacity |
| CrewOperation.JoinTwiceFails | server/src/application/use_cases/crew_operation.rs:85-90 | joining the same mission again right after a join is refused |
| CrewOperation.JoinThenLeave | server/src/application/use_cases/crew_operation.rs:44-152 | leaving right after a join restores the store exactly; the leave reports success unless the join filled a Failed mission |
| CrewOperation.ForceStatus | server/src/application/use_cases/crew_operation.rs:120-149 | the corrected status write sets the status of the live row and changes no other row |
| CrewOperation.JoinReportsFull | server/src/application/use_cases/crew_operation.rs:66-83 | corrected join: a full mission always answers "Mission is full", ends up Failed, and keeps its crew |
| CrewOperation.JoinReportsFullAgrees | server/src/application/use_cases/crew_operation.rs:66-83 | the corrected join equals the written one exactly except on a full mission that is already Failed |
| CrewOperation.JoinFullFailedReportsNotFound | server/src/application/use_cases/crew_operation.rs:66-83 | as written, joining a full Failed mission answers NotFound, while the corrected join answers "Mission is full" |
| CrewOperation.LeaveReopening | server/src/application/use_cases/crew_operation.rs:120-149 | corrected leave: leaving a Failed mission at capacity succeeds and reopens it; its crew change is always that of the written leave |
| CrewOperation.LeaveNeverReopens | server/src/application/use_cases/crew_operation.rs:120-149 | as written, that leave deletes the pair, keeps the mission Failed and answers NotFound; the corrected leave reopens it |
| CrewOperation.KickReopening | server/src/application/use_cases/crew_operation.rs:197-221 | corrected kick: kicking from a Failed mission that was at capacity before the kick succeeds and reopens it; its crew change is always that of the written kick |
| CrewOperation.KickNeverReopens | server/src/application/use_cases/crew_operation.rs:197-221 | as written, a kick from a Failed mission exactly at capacity succeeds but leaves it Failed; the corrected kick reopens it |
| CrewOperation.KickStillFullReportsNotFound | server/src/application/use_cases/crew_operation.rs:197-221 | as written, a kick from a Failed mission still at capacity after the delete deletes the pair, keeps the mission Failed and answers the reopening edit's NotFound |
| CrewOperation.CorrectedJoinKeepsInvariants | server/src/application/use_cases/crew_operation.rs:66-83 | the corrected join keeps the store constraints and chiefs out of their crews |
| CrewOperation.CorrectedLeaveKeepsInvariants | server/src/application/use_cases/crew_operation.rs:120-149 | the corrected leave keeps the same invariants |
| CrewOperation.CorrectedKickKeepsInvariants | server/src/application/use_cases/crew_operation.rs:197-221 | the corrected kick keeps the same invariants |
| MissionOperation.DeadlineFrom | server/src/application/use_cases/mission_operation.rs:77-83 | a deadline exists exactly when a duration does, and lies that many minutes after now |
| MissionOperation.StartMission | server/src/application/use_cases/mission_operation.rs:32-91 | the error for each failing check, in the code's order, including OnlyChiefCanStart for a caller who is not the chief once the status, deadline and capacity checks pass; success exactly when all pass, setting InProgress and the deadline on that row only |
| MissionOperation.ToCompletedOp | server/src/application/use_cases/mission_operation.rs:93-116 | completion succeeds exactly for a live InProgress mission and its chief, setting Completed on that row only; the other cases give their errors and no change |
| MissionOperation.ToFailedOp | server/src/application/use_cases/mission_operation.rs:118-139 | failing succeeds exactly for a live InProgress mission and its chief, setting Failed on that row only; the other cases give their errors and no change |
| MissionOperation.StartIgnoresMaxCrew | server/src/application/use_cases/mission_operation.rs:63-69 | changing a mission's max_crew changes no answer of in_progress |
| MissionOperation.OnlyChiefMovesLifecycle | server/src/application/use_cases/mission_operation.rs:32-139 | a caller who is not the chief gets an error from all three operations and changes nothing |
| MissionOperation.StartThenEnd | server/src/application/use_cases/mission_operation.rs:93-139 | a started mission can be completed or failed, and neither can be applied twice |
| MissionOperation.FailedWithDeadlineStaysFailed | server/src/application/use_cases/mission_operation.rs:54-61 | a mission with a duration that was started and then failed can never be restarted |
| Queries.Sort | server/src/infrastructure/database/repositories/mission_viewing.rs:66 | sorting gives a newest-first permutation of its input |
| Queries.Filter | server/src/infrastructure/database/repositories/mission_viewing.rs:52-62 | filtering keeps each accepted row as often as it occurred and drops the others |
| Queries.Query | server/src/infrastructure/database/repositories/mission_viewing.rs:52-67 | a query returns each row of the table its WHERE clause accepts exactly once, newest first |
| Queries.InsertSorted | server/src/infrastructure/database/repositories/mission_viewing.rs:66 | inserting into a newest-first sequence keeps it newest first |
| Queries.InsertAdds | server/src/infrastructure/database/repositories/mission_viewing.rs:66 | inserting adds exactly the one row |
| Queries.Limit | server/src/infrastructure/database/repositories/dashboard.rs:63 | a limit gives a prefix of length min(n, size) |
| Listings.ModelRow | server/src/infrastructure/database/repositories/dashboard.rs:48-60 | a listed row carries the mission, its chief's display name and its crew count |
| Listings.TopOfQuery | server/src/infrastructure/database/repositories/dashboard.rs:59-63 | a limited query is the n newest of its pool: all from the pool, distinct, newest first, and no omitted row is newer than the last one returned |
| Listings.QueryRowsAccepted | server/src/infrastructure/database/repositories/dashboard.rs:61-63 | every row a limited query returns satisfies its WHERE clause |
| Queries.SortedPrefix | server/src/infrastructure/database/repositories/dashboard.rs:62-63 | a prefix of a newest-first list is newest first |
| Listings.AllOfQuery | server/src/infrastructure/database/repositories/brawlers.rs:134-140 | an unlimited query returns exactly its pool, each row once |
| Listings.Listing | server/src/infrastructure/database/repositories/dashboard.rs:42-71 | a listing fails with a negative limit and only then; otherwise one model row per selected mission |
| Dashboard.GetStats | server/src/infrastructure/database/repositories/dashboard.rs:27-40 | the four counts are the live missions, the brawlers, the live Open and the live InProgress missions; open plus active never exceeds the total |
| Dashboard.StartMovesOpenToActive | server/src/infrastructure/database/repositories/dashboard.rs:27-40 | starting an Open mission moves one from the open count to the active count and keeps the totals |
| Dashboard.GetUserDashboard | server/src/infrastructure/database/repositories/dashboard.rs:73-94 | led, joined and success counts as their sets' sizes; the total is joined plus led; successes never exceed joined |
| Dashboard.RemoveKeepsMemberCounts | server/src/infrastructure/database/repositories/dashboard.rs:73-94 | deleting a mission keeps every member's joined and success counts and lowers the chief's led count by one |
| Dashboard.GetRecentMissions | server/src/infrastructure/database/repositories/dashboard.rs:42-71 | a negative limit is rejected; otherwise the n newest live missions with a chief row, each once |
| Dashboard.ActiveWhereSelectsPool | server/src/infrastructure/database/repositories/dashboard.rs:96-134 | the text-based WHERE clause selects exactly the active pool |
| Dashboard.GetUserActiveMissions | server/src/infrastructure/database/repositories/dashboard.rs:96-134 | a negative limit is rejected; otherwise the n most recently updated live Open or InProgress missions the brawler leads or belongs to |
| Dashboard.OpenWhereSelectsPool | server/src/infrastructure/database/repositories/dashboard.rs:136-176 | the text-based WHERE clause selects exactly the open pool |
| Dashboard.GetOpenMissionsForUser | server/src/infrastructure/database/repositories/dashboard.rs:136-176 | a negative limit is rejected; otherwise the n newest live Open missions with room that the brawler neither leads nor belongs to |
| Dashboard.OpenPoolJoinable | server/src/infrastructure/database/repositories/dashboard.rs:136-176 | every mission in a brawler's open pool is one the join use case accepts |
| Dashboard.OfferedMissionsAreJoinable | server/src/infrastructure/database/repositories/dashboard.rs:136-176 | every mission offered to a brawler can be joined by that brawler |
| Dashboard.JoinedMissionIsActive | server/src/infrastructure/database/repositories/dashboard.rs:96-134 | after joining an Open mission it is in the joiner's active pool and no longer in their open pool |
| Brawlers.BrawlerCrewCounting | server/src/infrastructure/database/repositories/brawlers.rs:100-111 | the brawler repository's count agrees with the viewing repository's |
| Brawlers.GetBrawlersByMissionId | server/src/infrastructure/database/repositories/brawlers.rs:76-88 | one brawler per membership whose brawler exists, and a brawler is listed exactly when it holds such a membership |
| Brawlers.CrewListMatchesMemberships | server/src/infrastructure/database/repositories/brawlers.rs:76-88 | in a valid store the list is as long as the crew count and never contains the chief |
| Brawlers.MemberQuery | server/src/infrastructure/database/repositories/brawlers.rs:134-140 | the rows are exactly the brawler's live led or joined missions with a chief row, each once, newest first |
| Brawlers.GetMissions | server/src/infrastructure/database/repositories/brawlers.rs:113-148 | exactly the live missions the brawler leads or belongs to, each once, newest first, each with its chief's name and crew count |
| Brawlers.JoinListsMission | server/src/infrastructure/database/repositories/brawlers.rs:136-139 | after a successful join the mission is among the joiner's missions |
| Brawlers.LeaveUnlistsMission | server/src/infrastructure/database/repositories/brawlers.rs:136-139 | after a member leaves, the mission is no longer among their missions |
| Text.Trim | server/src/infrastructure/http/middleware/auth.rs:44-45 | the result sits in the input with only whitespace before and after it, and neither starts nor ends with whitespace |
| Text.TrimStart | server/src/infrastructure/http/middleware/auth.rs:44-45 | the result is a suffix of the input, everything cut off is whitespace, and it does not start with whitespace |
| Text.TrimEnd | server/src/infrastructure/http/middleware/auth.rs:44-45 | the result is a prefix of the input, everything cut off is whitespace, and it does not end with whitespace |
| Text.IndexOf | server/src/infrastructure/http/middleware/auth.rs:43 | a position is found exactly when the pattern occurs, and it is the first occurrence |
| Text.Split | server/src/infrastructure/http/middleware/auth.rs:42 | the pieces joined by the separator give back the input, and no piece contains the separator |
| Text.StripPrefix | server/src/infrastructure/http/middleware/auth.rs:15 | stripping succeeds exactly when the prefix is there and leaves the rest |
| Text.ParseI32 | server/src/infrastructure/http/middleware/auth.rs:31-34 | a result exists exactly when the text is an optional sign and one or more ASCII digits spelling a 32-bit value, and it is that value |
| Text.ParseRendersBack | server/src/infrastructure/http/middleware/auth.rs:31-34 | every 32-bit id rendered as text parses back to itself |
| Auth.ToStr | server/src/infrastructure/http/middleware/auth.rs:14 | a header reads as text exactly when all its bytes are visible ASCII or tab, and then the text has the same characters |
| Auth.BearerToken | server/src/infrastructure/http/middleware/auth.rs:11-16 | a bearer token exists exactly when the header is text starting with "Bearer ", and is what follows |
| Auth.TokenSource | server/src/infrastructure/http/middleware/auth.rs:11-23 | the bearer token when there is one, otherwise the token cookie |
| Auth.Authorization | server/src/infrastructure/http/middleware/auth.rs:10-39 | no token or no secret is 401; a usable bearer header alone decides, otherwise the token cookie does; a caller let through has a 32-bit id |
| Auth.Authenticate | server/src/infrastructure/http/middleware/auth.rs:23-34 | once a token has been looked for, the caller is let through exactly when a token, a secret, a verified claim and a 32-bit subject all exist, and is then that subject |
| Auth.IssuedTokenAuthorises | server/src/infrastructure/http/middleware/auth.rs:28-34 | a token whose subject is an id rendered as text authorises exactly that id |
| Auth.BearerTakesPrecedence | server/src/infrastructure/http/middleware/auth.rs:11-22 | a usable bearer header wins over any cookie |
| Auth.FallsBackToCookie | server/src/infrastructure/http/middleware/auth.rs:17-22 | a missing, non-text or non-Bearer header falls back to the cookie |
| Auth.CookiePair | server/src/infrastructure/http/middleware/auth.rs:43-45 | a segment has a name and value exactly when it contains '=' |
| Auth.CookiePairSplitsAtFirstEquals | server/src/infrastructure/http/middleware/auth.rs:43-45 | the segment is cut at its first '=', into the trimmed text before it and the trimmed text after it |
| Auth.FirstNaming | server/src/infrastructure/http/middleware/auth.rs:42-51 | the search finds the first segment at or after the start that names the key, or reports that none does |
| Auth.CookieLookup | server/src/infrastructure/http/middleware/auth.rs:42-51 | the value of the first segment naming the key, and none exactly when no segment names it |
| Auth.SegmentWithoutPairSkipped | server/src/infrastructure/http/middleware/auth.rs:42-51 | a segment without '=' does not end the search |
| Cloudinary.LexTransitive | server/src/infrastructure/cloudinary/mod.rs:14 | the key order of the map is transitive |
| Cloudinary.LexTotal | server/src/infrastructure/cloudinary/mod.rs:14 | any two different keys are ordered one way or the other |
| Cloudinary.LexIrreflexive | server/src/infrastructure/cloudinary/mod.rs:14 | no key is below itself |
| Cloudinary.Lookup | server/src/infrastructure/cloudinary/mod.rs:14 | a lookup finds a value exactly for a present key, and the entry is in the map |
| Cloudinary.InsertKeys | server/src/infrastructure/cloudinary/mod.rs:15-24 | an insert adds exactly its key to the map's keys |
| Cloudinary.InsertLookup | server/src/infrastructure/cloudinary/mod.rs:15-24 | after an insert the key maps to the new value and every other key is as before |
| Cloudinary.InsertOrdered | server/src/infrastructure/cloudinary/mod.rs:15-24 | an insert keeps the entries in ascending key order |
| Cloudinary.Put | server/src/infrastructure/cloudinary/mod.rs:17-25 | an optional insert keeps the order and adds the key exactly when the option is set |
| Cloudinary.PutLookup | server/src/infrastructure/cloudinary/mod.rs:17-25 | after an optional insert the key maps to the option's value when set, and other keys are as before |
| Cloudinary.ParamsToSign | server/src/infrastructure/cloudinary/mod.rs:14-25 | the parameters to sign are in ascending key order |
| Cloudinary.ParamsToSignValues | server/src/infrastructure/cloudinary/mod.rs:14-25 | the timestamp is always signed, and each option exactly when it is set, with its value |
| Cloudinary.ParamsToSignKeys | server/src/infrastructure/cloudinary/mod.rs:14-25 | nothing but the timestamp and the three options is signed |
| Cloudinary.JoinStep | server/src/infrastructure/cloudinary/mod.rs:28-32 | each further entry adds '&' and its key=value to the text built so far; the first adds only key=value |
| Cloudinary.BuildToSign | server/src/infrastructure/cloudinary/mod.rs:27-35 | the loop builds the entries as key=value joined by '&', then the secret, and adds every entry to the form in order |
| Cloudinary.FormBuilder | server/src/infrastructure/cloudinary/mod.rs:10-45 | the form is the signed parameters, then the signature over the string to sign, then the unsigned API key |
| Cloudinary.StringToSignShape | server/src/infrastructure/cloudinary/mod.rs:27-35 | a single entry signs as key=value+secret, and every further entry is preceded by one '&' |

## Left out

- I/O, the connection pool, and Diesel or Postgres failures other than
  "no row" and constraint violations. Each repository call either succeeds
  or fails the way its query does on a healthy database.
- Concurrency. Each use case runs alone on one store, so the races between
  a count and the write that depends on it are not modelled.
- JWT signing and verification: `verify` is a parameter of `Auth.Authenticate`.
  The signing secret is an `Option`, standing for `get_user_secret`.
- SHA-1 and the clock: `sha1` and `now` are parameters of `Cloudinary.FormBuilder`.
  The upload request itself (`upload`) is not modelled.
- Reading `MAX_CREW_PER_MISSION` from the environment, and its parse
  error: the cap is a parameter of `MissionOperation.StartMission`.
- MissionViewingRepo.CrewCounting: `count as u32` is not modelled; the
  truncation only matters past 2^32 memberships. Counts are unbounded naturals.
- MissionViewingRepo.GetAll: `ILIKE` pattern syntax in a name filter is
  not modelled. `%` and `_` typed by the user are treated as plain text, and
  so is a backslash, which Postgres reads as the default escape character
  (the filter `a\b` matches the name `ab` there, but only `a\b` here). The
  match is a plain case-insensitive substring test (`ContainsIgnoringCase`),
  and case folding is ASCII only.
- `MissionEntity::to_model` is not part of this model. `MissionViewing.ToModel`
  carries the row and the crew count, and no chief display name.
- The brawler registration, avatar upload and profile update operations,
  and the HTTP routers: they sit outside the mission core.
- The Postgres implementations of the crew membership and mission
  operation repositories are not part of this model. They are modelled as a
  plain insert/delete with the table's constraints (`CrewStore`) and a
  guarded update of the live row with that id and chief (`MissionOperationStore`).
- Auth.GetCookieValue: its contract only says it is `CookieLookup` over the
  header split at "; ". The properties are stated on `Auth.CookieLookup`,
  `Text.Split` and `Auth.CookiePairSplitsAtFirstEquals`.
- `updated_at` maintenance: no write in the model changes a row's
  `updatedAt` after its insert, and no source write in this core sets it
  either, so `Dashboard.GetUserActiveMissions` orders by a column that edits
  do not advance. A database trigger that would maintain it is not part of
  this model.
- Queries.Sort: the database may order equal timestamps either way. The
  model fixes one order, and every listing contract is stated so that it
  holds for any newest-first order.

## Findings

| source | as written | input that shows it | evidently intended | confidence | as-written member | corrected member |
|---|---|---|---|---|---|---|
| server/src/application/use_cases/crew_operation.rs:66-83 | on a full mission, `join` marks it Failed through `edit`, which only matches Open rows | joining a Failed mission whose crew count equals its `max_crew` | answer "Mission is full" | high; not executed | CrewOperation.JoinFullFailedReportsNotFound | CrewOperation.JoinReportsFull |
| server/src/application/use_cases/crew_operation.rs:120-149 | `leave` reopens a full Failed mission through `edit`, which only matches Open rows | a member leaving a Failed mission whose crew count was at `max_crew` | the mission reopens and the leave succeeds | high; not executed | CrewOperation.LeaveNeverReopens | CrewOperation.LeaveReopening |
| server/src/application/use_cases/crew_operation.rs:197-221 | `kick_member` recounts after the delete, so a mission exactly at capacity no longer looks full; even when it does, the reopening `edit` cannot match a Failed row and the kick answers NotFound (`CrewOperation.KickStillFullReportsNotFound`) | the chief kicking one member from a Failed mission whose crew count equals its `max_crew` | a Failed mission that was full before the kick reopens | high; not executed | CrewOperation.KickNeverReopens | CrewOperation.KickReopening |
| server/src/infrastructure/database/repositories/mission_viewing.rs:83-89 | the roster's success count compares the status with 'SUCCESS', a text no status renders to | any roster whose brawler has a membership in a Completed mission | count the memberships in Completed missions | high; not executed | MissionViewingRepo.SuccessCountAlwaysZero | MissionViewingRepo.GetMissionCrewCompleted |

=== FILE: auth.dfy ===
/** The authorization middleware: where the token is taken from, the
    `Cookie` header lookup, and how the verified subject becomes the caller's
    brawler id.  Token verification itself is a parameter. */
module Auth {
  import opened Results
  import opened Text

  newtype byte = x: int | 0 <= x < 256

  /** The two request headers the middleware reads, as raw bytes. */
  datatype Request = Request(authorization: Option<seq<byte>>, cookie: Option<seq<byte>>)

  /** The claims of a verified token; `sub` holds the brawler id as text. */
  datatype Claims = Claims(sub: string, exp: int, iat: int)

  /** What the middleware does with the request: reject it with 401, or
      pass it on with the brawler id attached. */
  datatype Outcome = Unauthorized | Authorized(brawlerId: int)

  /** The bytes `HeaderValue::to_str` accepts: visible ASCII and tab. */
  predicate IsVisible(b: byte) {
    (32 <= b < 127) || b == 9
  }

  /** `HeaderValue::to_str`: the text of a header made only of visible
      ASCII, and nothing otherwise. */
  function ToStr(v: seq<byte>): (r: Option<string>)
    ensures r.Some? <==> forall i :: 0 <= i < |v| ==> IsVisible(v[i])
    ensures r.Some? ==> |r.value| == |v| && forall i :: 0 <= i < |v| ==> r.value[i] as int == v[i] as int
  {
    if forall i :: 0 <= i < |v| ==> IsVisible(v[i])
    then Some(seq(|v|, i requires 0 <= i < |v| => v[i] as int as char))
    else None
  }

  /** The token of an `Authorization: Bearer <token>` header (section 2.1
      of RFC 6750), with the scheme matched case-sensitively. */
  function BearerToken(req: Request): (r: Option<string>)
    ensures r.Some? <==> req.authorization.Some? && ToStr(req.authorization.value).Some?
                         && "Bearer " <= ToStr(req.authorization.value).value
    ensures r.Some? ==> "Bearer " + r.value == ToStr(req.authorization.value).value
  {
    match req.authorization
    case None => None
    case Some(h) =>
      match ToStr(h)
      case None => None
      case Some(text) => StripPrefix(text, "Bearer ")
  }

  /** The `token` cookie of the `Cookie` header. */
  function CookieToken(req: Request): Option<string> {
    match req.cookie
    case None => None
    case Some(h) =>
      match ToStr(h)
      case None => None
      case Some(text) => GetCookieValue(text, "token")
  }

  /** The token the middleware uses: the bearer token when there is one,
      otherwise the `token` cookie. */
  function TokenSource(req: Request): (r: Option<string>)
    ensures BearerToken(req).Some? ==> r == BearerToken(req)
    ensures BearerToken(req).None? ==> r == CookieToken(req)
  {
    match BearerToken(req)
    case Some(t) => Some(t)
    case None => CookieToken(req)
  }

  /** The second half of `authorization`, once a token has been looked for:
      no token, no secret, a token that does not verify, or a subject that is
      not an `i32` each give 401; otherwise the parsed subject is the caller.
      `verify` stands for the JWT check. */
  function Authenticate(token: Option<string>, secret: Option<string>, verify: (string, string) -> Option<Claims>): (r: Outcome)
    ensures r.Authorized? <==>
      && token.Some? && secret.Some?
      && verify(secret.value, token.value).Some?
      && ParseI32(verify(secret.value, token.value).value.sub).Some?
    ensures r.Authorized? ==> r.brawlerId == ParseI32(verify(secret.value, token.value).value.sub).value
    ensures r.Authorized? ==> I32Min <= r.brawlerId <= I32Max
  {
    match token
    case None => Unauthorized
    case Some(t) =>
      match secret
      case None => Unauthorized
      case Some(key) =>
        match verify(key, t)
        case None => Unauthorized
        case Some(claims) =>
          match ParseI32(claims.sub)
          case None => Unauthorized
          case Some(id) => Authorized(id)
  }

  /** `authorization`: authenticate the token `TokenSource` picks.  A bearer
      header that yields a token decides alone; only without one does the
      cookie count; no token or no secret is 401. */
  function Authorization(req: Request, secret: Option<string>, verify: (string, string) -> Option<Claims>): (r: Outcome)
    ensures secret.None? ==> r == Unauthorized
    ensures BearerToken(req).None? && CookieToken(req).None? ==> r == Unauthorized
    ensures BearerToken(req).Some? ==> r == Authenticate(BearerToken(req), secret, verify)
    ensures BearerToken(req).None? ==> r == Authenticate(CookieToken(req), secret, verify)
    ensures r.Authorized? ==> I32Min <= r.brawlerId <= I32Max
  {
    Authenticate(TokenSource(req), secret, verify)
  }

  /** A token issued for brawler `id` (its subject is `id` rendered as
      text) lets exactly that brawler through. */
  lemma IssuedTokenAuthorises(token: string, secret: string, verify: (string, string) -> Option<Claims>, id: int, exp: int, iat: int)
    requires I32Min <= id <= I32Max
    requires verify(secret, token) == Some(Claims(IntToString(id), exp, iat))
    ensures Authenticate(Some(token), Some(secret), verify) == Authorized(id)
  {
    ParseRendersBack(id);
  }

  /** A usable bearer header wins over any cookie. */
  lemma BearerTakesPrecedence(auth: seq<byte>, cookie: Option<seq<byte>>, token: string)
    requires ToStr(auth) == Some("Bearer " + token)
    ensures TokenSource(Request(Some(auth), cookie)) == Some(token)
  {
    assert "Bearer " <= "Bearer " + token;
  }

  /** A missing, non-ASCII or non-Bearer authorization header falls back to
      the cookie. */
  lemma FallsBackToCookie(req: Request)
    requires req.authorization.None? || ToStr(req.authorization.value).None?
             || !("Bearer " <= ToStr(req.authorization.value).value)
    ensures TokenSource(req) == CookieToken(req)
  {
  }

  /** A cookie segment split at its first `=` into a trimmed name and a
      trimmed value; a segment without `=` has no pair. */
  function CookiePair(segment: string): (r: Option<(string, string)>)
    ensures r.Some? <==> Contains(segment, "=")
  {
    match IndexOf(segment, "=")
    case None => None
    case Some(i) => Some((Trim(segment[..i]), Trim(segment[i + 1..])))
  }

  /** The name and value are cut at the first `=`: the name holds no `=`,
      and the value keeps any later ones. */
  lemma CookiePairSplitsAtFirstEquals(segment: string, i: nat)
    requires OccursAt(segment, "=", i)
    requires forall j :: 0 <= j < i ==> !OccursAt(segment, "=", j)
    ensures CookiePair(segment) == Some((Trim(segment[..i]), Trim(segment[i + 1..])))
  {
    assert Contains(segment, "=");
    var v := IndexOf(segment, "=").value;
    assert !(v < i) && !(i < v);
  }

  /** The segment carries a pair whose name is `key`. */
  predicate Names(segment: string, key: string) {
    CookiePair(segment).Some? && CookiePair(segment).value.0 == key
  }

  /** The position of the first segment naming `key`, searching from `from`. */
  function FirstNaming(segments: seq<string>, key: string, from: nat): (r: Option<nat>)
    requires from <= |segments|
    ensures r.Some? ==> from <= r.value < |segments| && Names(segments[r.value], key)
    ensures r.Some? ==> forall j :: from <= j < r.value ==> !Names(segments[j], key)
    ensures r.None? ==> forall j :: from <= j < |segments| ==> !Names(segments[j], key)
    decreases |segments| - from
  {
    if from == |segments| then None
    else if Names(segments[from], key) then Some(from)
    else FirstNaming(segments, key, from + 1)
  }

  /** Only one segment can be the first to name a key. */
  lemma FirstNamedUnique(segments: seq<string>, key: string, k: int)
    requires 0 <= k < |segments| && Names(segments[k], key)
    requires forall j :: 0 <= j < k ==> !Names(segments[j], key)
    ensures forall i :: 0 <= i < |segments| && Names(segments[i], key)
                        && (forall j :: 0 <= j < i ==> !Names(segments[j], key))
                        ==> i == k
  {
    forall i | 0 <= i < |segments| && Names(segments[i], key) && (forall j :: 0 <= j < i ==> !Names(segments[j], key))
      ensures i == k
    {
      assert !(i < k) && !(k < i);
    }
  }

  /** The value of the first segment naming `key`; segments without `=`
      are skipped rather than ending the search. */
  function CookieLookup(segments: seq<string>, key: string): (r: Option<string>)
    ensures r.None? <==> forall i :: 0 <= i < |segments| ==> !Names(segments[i], key)
    ensures forall i :: 0 <= i < |segments| && Names(segments[i], key)
                        && (forall j :: 0 <= j < i ==> !Names(segments[j], key))
                        ==> r == Some(CookiePair(segments[i]).value.1)
  {
    match FirstNaming(segments, key, 0)
    case None => None
    case Some(k) =>
      FirstNamedUnique(segments, key, k);
      Some(CookiePair(segments[k]).value.1)
  }


  /** `get_cookie_value`: split the header at every "; " and look the key
      up among the pieces. */
  function GetCookieValue(header: string, key: string): (r: Option<string>)
    ensures r == CookieLookup(Split(header, "; "), key)
  {
    CookieLookup(Split(header, "; "), key)
  }

  /** Searching behind one extra leading segment finds the same segment,
      one position later. */
  lemma {:induction false} FirstNamingShift(segment: string, rest: seq<string>, key: string, from: nat)
    requires from <= |rest|
    ensures var shifted := FirstNaming([segment] + rest, key, from + 1);
      var plain := FirstNaming(rest, key, from);
      (shifted.Some? <==> plain.Some?) && (plain.Some? ==> shifted.value == plain.value + 1)
    decreases |rest| - from
  {
    var all := [segment] + rest;
    if from < |rest| {
      assert all[from + 1] == rest[from];
      FirstNamingShift(segment, rest, key, from + 1);
    }
  }

  /** A segment without `=` does not stop the search: the answer is the
      one for the remaining segments. */
  lemma SegmentWithoutPairSkipped(segment: string, rest: seq<string>, key: string)
    requires !Contains(segment, "=")
    ensures CookieLookup([segment] + rest, key) == CookieLookup(rest, key)
  {
    var all := [segment] + rest;
    assert !Names(all[0], key);
    FirstNamingShift(segment, rest, key, 0);
    assert FirstNaming(all, key, 0) == FirstNaming(all, key, 1);
    var plain := FirstNaming(rest, key, 0);
    if plain.Some? {
      assert all[plain.value + 1] == rest[plain.value];
    }
  }
}

=== FILE: brawlers.dfy ===
/** The query part of the brawlers repository: a mission's crew members,
    its crew count, and the missions a brawler leads or belongs to. */
module Brawlers {
  import opened Results
  import opened Entities
  import opened Database
  import opened Queries
  import opened Listings
  import opened MissionViewingRepo
  import opened CrewOperation

  /** `crew_counting` of the brawlers repository: the same count query as
      the mission viewing repository's. */
  function BrawlerCrewCounting(s: Store, missionId: int): (r: Result<nat>)
    ensures r == CrewCounting(s, missionId)
    ensures r.Ok? && r.value == |set p | p in s.crew && p.0 == missionId|
  {
    Ok(|set p | p in s.crew && p.0 == missionId|)
  }

  /** The brawler rows holding a membership of the mission. */
  function MemberRows(s: Store, missionId: int): set<Brawler> {
    set p | p in RosterRows(s, missionId) :: s.brawlers[p.1]
  }

  /** `get_brawlers_by_mission_id`: `brawlers INNER JOIN crew_memberships`
      filtered by mission, one row per membership whose brawler exists. */
  ghost function GetBrawlersByMissionId(s: Store, missionId: int): (r: Result<seq<Brawler>>)
    ensures r.Ok?
    ensures |r.value| == |RosterRows(s, missionId)|
    ensures forall b :: b in r.value <==> b in MemberRows(s, missionId)
  {
    var pairs := SetToSeq(RosterRows(s, missionId));
    assert forall i :: 0 <= i < |pairs| ==> pairs[i] in RosterRows(s, missionId) by {
      forall i | 0 <= i < |pairs|
        ensures pairs[i] in RosterRows(s, missionId)
      {
        assert multiset(pairs)[pairs[i]] > 0;
      }
    }
    var rows := seq(|pairs|, i requires 0 <= i < |pairs| => s.brawlers[pairs[i].1]);
    forall b
      ensures b in rows <==> b in MemberRows(s, missionId)
    {
      if b in MemberRows(s, missionId) {
        var p :| p in RosterRows(s, missionId) && s.brawlers[p.1] == b;
        assert multiset(pairs)[p] == 1;
        var i :| 0 <= i < |pairs| && pairs[i] == p;
        assert rows[i] == b;
      }
    }
    Ok(rows)
  }

  /** In a valid store the crew list has one row per membership, and the
      chief of a mission is never in its crew list while the crew operations
      keep chiefs out of their own crews. */
  lemma CrewListMatchesMemberships(s: Store, missionId: int)
    requires Valid(s) && ChiefNotInCrew(s) && missionId in s.missions
    ensures |GetBrawlersByMissionId(s, missionId).value| == CrewCount(s, missionId)
    ensures forall b :: b in GetBrawlersByMissionId(s, missionId).value ==> b.id != s.missions[missionId].chiefId
  {
    assert RosterRows(s, missionId) == CrewRows(s.crew, missionId);
  }

  /** The WHERE clause of `get_missions`, with the chief join. */
  predicate MemberWhere(s: Store, b: int, m: Mission) {
    (m.chiefId == b || (m.id, b) in s.crew) && !m.deleted && m.chiefId in s.brawlers
  }

  /** The live missions brawler `b` leads or belongs to, with their chief's row. */
  function MemberPool(s: Store, b: int): set<Mission> {
    set m | m in MissionRows(s) && MemberWhere(s, b, m)
  }

  /** The rows of `get_missions` before the chief's name is joined on. */
  ghost function MemberQuery(s: Store, b: int): (xs: seq<Mission>)
    ensures forall m :: m in xs <==> m in MemberPool(s, b)
    ensures SortedDesc(xs, CreatedAt)
    ensures forall i, j :: 0 <= i < j < |xs| ==> xs[i] != xs[j]
    ensures forall i :: 0 <= i < |xs| ==> xs[i].chiefId in s.brawlers
  {
    var p := (m: Mission) => MemberWhere(s, b, m);
    var pool := MemberPool(s, b);
    assert forall m :: m in MissionRows(s) ==> (p(m) <==> m in pool);
    AllOfQuery(s, p, pool, CreatedAt);
    var xs := Query(s, p, CreatedAt);
    forall i | 0 <= i < |xs|
      ensures xs[i].chiefId in s.brawlers
    {
      assert xs[i] in pool;
    }
    xs
  }

  /** `get_missions`: every live mission the brawler leads or belongs to,
      each once, newest first, with its crew count. */
  ghost function GetMissions(s: Store, b: int): (r: Result<seq<MissionModel>>)
    ensures r.Ok?
    ensures forall m :: m in MissionsOf(r.value) <==> m in MemberPool(s, b)
    ensures SortedDesc(MissionsOf(r.value), CreatedAt)
    ensures forall i, j :: 0 <= i < j < |r.value| ==> r.value[i].mission != r.value[j].mission
    ensures forall i :: 0 <= i < |r.value| ==>
      (r.value[i].mission.chiefId in s.brawlers && r.value[i] == ModelRow(s, r.value[i].mission))
  {
    var xs := MemberQuery(s, b);
    var rows := Rows(s, xs);
    assert MissionsOf(rows) == xs;
    Ok(rows)
  }

  /** A successful join adds the mission to the joiner's missions. */
  lemma JoinListsMission(s: Store, missionId: int, b: int)
    requires Join(s, missionId, b).result.Ok? && s.missions[missionId].chiefId in s.brawlers
    requires Valid(s)
    ensures var t := Join(s, missionId, b).store;
      t.missions[missionId] in MissionsOf(GetMissions(t, b).value)
  {
    var t := Join(s, missionId, b).store;
    assert t.missions[missionId] in MissionRows(t);
  }

  /** After a member leaves, the mission is no longer among their missions. */
  lemma LeaveUnlistsMission(s: Store, missionId: int, b: int)
    requires Valid(s) && LeaveChecksPass(s, missionId) && s.missions[missionId].chiefId != b
    ensures var t := Leave(s, missionId, b).store;
      t.missions[missionId] !in MissionsOf(GetMissions(t, b).value)
  {
    var t := Leave(s, missionId, b).store;
    var m := t.missions[missionId];
    assert m.id == missionId && (missionId, b) !in t.crew;
    assert !MemberWhere(t, b, m);
  }
}

=== FILE: cloudinary.dfy ===
/** The signed upload form for Cloudinary: the parameters to sign, kept in
    a key-ordered map, the string to sign built from them, and the form
    fields.  SHA-1 and the clock are parameters. */
module Cloudinary {
  import opened Results
  import opened Text

  datatype UploadImageOptions = UploadImageOptions(
    folder: Option<string>,
    publicId: Option<string>,
    transformation: Option<string>)

  datatype CloudinaryEnv = CloudinaryEnv(cloudName: string, apiKey: string, apiSecret: string)

  /** `Ord for String`: lexicographic, a proper prefix first.  UTF-8 byte
      order and code point order agree, so comparing characters is the
      same as comparing bytes. */
  predicate LexLess(a: string, b: string)
    decreases |a|
  {
    if |a| == 0 then |b| > 0
    else |b| > 0 && (a[0] < b[0] || (a[0] == b[0] && LexLess(a[1..], b[1..])))
  }

  lemma {:induction false} LexIrreflexive(a: string)
    ensures !LexLess(a, a)
    decreases |a|
  {
    if |a| > 0 {
      LexIrreflexive(a[1..]);
    }
  }

  lemma {:induction false} LexTransitive(a: string, b: string, c: string)
    requires LexLess(a, b) && LexLess(b, c)
    ensures LexLess(a, c)
    decreases |a|
  {
    if |a| > 0 && a[0] == b[0] && b[0] == c[0] {
      LexTransitive(a[1..], b[1..], c[1..]);
    }
  }

  lemma {:induction false} LexTotal(a: string, b: string)
    requires a != b
    ensures LexLess(a, b) || LexLess(b, a)
    decreases |a|
  {
    if |a| > 0 && |b| > 0 && a[0] == b[0] {
      assert a == [a[0]] + a[1..] && b == [b[0]] + b[1..];
      LexTotal(a[1..], b[1..]);
    }
  }

  /** A `BTreeMap<String, String>` as its entries in ascending key order. */
  predicate Ordered(kvs: seq<(string, string)>) {
    forall i, j :: 0 <= i < j < |kvs| ==> LexLess(kvs[i].0, kvs[j].0)
  }

  function Keys(kvs: seq<(string, string)>): set<string> {
    set i | 0 <= i < |kvs| :: kvs[i].0
  }

  /** `BTreeMap::get`. */
  function Lookup(kvs: seq<(string, string)>, k: string): (r: Option<string>)
    ensures r.Some? <==> k in Keys(kvs)
    ensures r.Some? ==> (k, r.value) in kvs
  {
    if |kvs| == 0 then None
    else if kvs[0].0 == k then Some(kvs[0].1)
    else
      KeysCons(kvs);
      var r := Lookup(kvs[1..], k);
      assert r.Some? ==> (k, r.value) in kvs[1..];
      r
  }

  /** `BTreeMap::insert`: an existing entry for `k` takes the new value,
      otherwise the entry goes in before the first larger key. */
  function Insert(kvs: seq<(string, string)>, k: string, v: string): seq<(string, string)>
    decreases |kvs|
  {
    if |kvs| == 0 then [(k, v)]
    else if kvs[0].0 == k then [(k, v)] + kvs[1..]
    else if LexLess(k, kvs[0].0) then [(k, v)] + kvs
    else [kvs[0]] + Insert(kvs[1..], k, v)
  }

  lemma {:induction false} InsertKeys(kvs: seq<(string, string)>, k: string, v: string)
    ensures Keys(Insert(kvs, k, v)) == Keys(kvs) + {k}
    decreases |kvs|
  {
    var r := Insert(kvs, k, v);
    if |kvs| == 0 {
      KeysCons(r);
    } else if kvs[0].0 == k {
      KeysCons(kvs);
      KeysCons(r);
      assert r[1..] == kvs[1..];
    } else if LexLess(k, kvs[0].0) {
      KeysCons(r);
      assert r[1..] == kvs;
    } else {
      InsertKeys(kvs[1..], k, v);
      KeysCons(kvs);
      KeysCons(r);
      assert r[1..] == Insert(kvs[1..], k, v);
    }
  }

  /** After the insert `k` maps to `v` and every other key is as before. */
  lemma {:induction false} InsertLookup(kvs: seq<(string, string)>, k: string, v: string, other: string)
    ensures Lookup(Insert(kvs, k, v), k) == Some(v)
    ensures other != k ==> Lookup(Insert(kvs, k, v), other) == Lookup(kvs, other)
    decreases |kvs|
  {
    var r := Insert(kvs, k, v);
    if |kvs| == 0 {
    } else if kvs[0].0 == k {
      assert r[1..] == kvs[1..];
    } else if LexLess(k, kvs[0].0) {
      assert r[1..] == kvs;
    } else {
      InsertLookup(kvs[1..], k, v, other);
      assert r[1..] == Insert(kvs[1..], k, v);
    }
  }

  /** The insert keeps the entries in ascending key order. */
  lemma {:induction false} InsertOrdered(kvs: seq<(string, string)>, k: string, v: string)
    requires Ordered(kvs)
    ensures Ordered(Insert(kvs, k, v))
    decreases |kvs|
  {
    if |kvs| == 0 {
    } else if kvs[0].0 == k {
      assert Insert(kvs, k, v)[1..] == kvs[1..];
    } else if LexLess(k, kvs[0].0) {
      forall j | 0 <= j < |kvs|
        ensures LexLess(k, kvs[j].0)
      {
        if j > 0 {
          LexTransitive(k, kvs[0].0, kvs[j].0);
        }
      }
      ConsOrdered((k, v), kvs);
    } else {
      LexTotal(k, kvs[0].0);
      OrderedTail(kvs);
      InsertOrdered(kvs[1..], k, v);
      InsertAbove(kvs[1..], k, v, kvs[0].0);
      ConsOrdered(kvs[0], Insert(kvs[1..], k, v));
    }
  }

  lemma OrderedTail(kvs: seq<(string, string)>)
    requires Ordered(kvs) && |kvs| > 0
    ensures Ordered(kvs[1..])
    ensures forall j :: 0 <= j < |kvs[1..]| ==> LexLess(kvs[0].0, kvs[1..][j].0)
  {
    forall i, j | 0 <= i < j < |kvs[1..]|
      ensures LexLess(kvs[1..][i].0, kvs[1..][j].0)
    {
      assert kvs[1..][i] == kvs[i + 1] && kvs[1..][j] == kvs[j + 1];
    }
    forall j | 0 <= j < |kvs[1..]|
      ensures LexLess(kvs[0].0, kvs[1..][j].0)
    {
      assert kvs[1..][j] == kvs[j + 1];
    }
  }

  /** An entry below every key of an ordered map can go in front. */
  lemma ConsOrdered(x: (string, string), kvs: seq<(string, string)>)
    requires Ordered(kvs)
    requires forall j :: 0 <= j < |kvs| ==> LexLess(x.0, kvs[j].0)
    ensures Ordered([x] + kvs)
  {
    var r := [x] + kvs;
    forall i, j | 0 <= i < j < |r|
      ensures LexLess(r[i].0, r[j].0)
    {
      assert r[j] == kvs[j - 1];
      if i > 0 {
        assert r[i] == kvs[i - 1];
      }
    }
  }

  /** Inserting a key above `lo` into entries above `lo` leaves every key
      above `lo`. */
  lemma {:induction false} InsertAbove(kvs: seq<(string, string)>, k: string, v: string, lo: string)
    requires LexLess(lo, k)
    requires forall j :: 0 <= j < |kvs| ==> LexLess(lo, kvs[j].0)
    ensures forall j :: 0 <= j < |Insert(kvs, k, v)| ==> LexLess(lo, Insert(kvs, k, v)[j].0)
    decreases |kvs|
  {
    if |kvs| > 0 && kvs[0].0 != k && !LexLess(k, kvs[0].0) {
      assert forall j :: 0 <= j < |kvs[1..]| ==> kvs[1..][j] == kvs[j + 1];
      InsertAbove(kvs[1..], k, v, lo);
      var rest := Insert(kvs[1..], k, v);
      assert forall j :: 1 <= j < |Insert(kvs, k, v)| ==> Insert(kvs, k, v)[j] == rest[j - 1];
    } else if |kvs| > 0 && kvs[0].0 == k {
      assert forall j :: 1 <= j < |Insert(kvs, k, v)| ==> Insert(kvs, k, v)[j] == kvs[j];
    }
  }

  lemma KeysCons(kvs: seq<(string, string)>)
    requires |kvs| > 0
    ensures Keys(kvs) == {kvs[0].0} + Keys(kvs[1..])
  {
    forall x | x in Keys(kvs)
      ensures x in {kvs[0].0} + Keys(kvs[1..])
    {
      var i :| 0 <= i < |kvs| && kvs[i].0 == x;
      if i > 0 {
        assert kvs[1..][i - 1] == kvs[i];
      }
    }
    forall x | x in Keys(kvs[1..])
      ensures x in Keys(kvs)
    {
      var i :| 0 <= i < |kvs[1..]| && kvs[1..][i].0 == x;
      assert kvs[i + 1] == kvs[1..][i];
    }
  }

  const TimestampKey: string := "timestamp"
  const FolderKey: string := "folder"
  const PublicIdKey: string := "public_id"
  const TransformationKey: string := "transformation"

  /** The parameters to sign: the timestamp always, and each option that is
      set, in ascending key order. */
  function ParamsToSign(timestamp: string, opt: UploadImageOptions): (r: seq<(string, string)>)
    ensures Ordered(r)
  {
    assert Keys([]) == {};
    var m0 := Put([], TimestampKey, Some(timestamp));
    var m1 := Put(m0, FolderKey, opt.folder);
    var m2 := Put(m1, PublicIdKey, opt.publicId);
    Put(m2, TransformationKey, opt.transformation)
  }

  /** The timestamp is signed, and each option is signed exactly when it is
      set, with its own value. */
  lemma ParamsToSignValues(timestamp: string, opt: UploadImageOptions)
    ensures Lookup(ParamsToSign(timestamp, opt), TimestampKey) == Some(timestamp)
    ensures Lookup(ParamsToSign(timestamp, opt), FolderKey) == opt.folder
    ensures Lookup(ParamsToSign(timestamp, opt), PublicIdKey) == opt.publicId
    ensures Lookup(ParamsToSign(timestamp, opt), TransformationKey) == opt.transformation
  {
    ParamKeysDistinct();
    assert Keys([]) == {};
    var m0 := Put([], TimestampKey, Some(timestamp));
    var m1 := Put(m0, FolderKey, opt.folder);
    var m2 := Put(m1, PublicIdKey, opt.publicId);
    assert ParamsToSign(timestamp, opt) == Put(m2, TransformationKey, opt.transformation);
    PutLookup([], TimestampKey, Some(timestamp), FolderKey);
    PutLookup([], TimestampKey, Some(timestamp), PublicIdKey);
    PutLookup([], TimestampKey, Some(timestamp), TransformationKey);
    PutLookup(m0, FolderKey, opt.folder, TimestampKey);
    PutLookup(m0, FolderKey, opt.folder, PublicIdKey);
    PutLookup(m0, FolderKey, opt.folder, TransformationKey);
    PutLookup(m1, PublicIdKey, opt.publicId, TimestampKey);
    PutLookup(m1, PublicIdKey, opt.publicId, FolderKey);
    PutLookup(m1, PublicIdKey, opt.publicId, TransformationKey);
    PutLookup(m2, TransformationKey, opt.transformation, TimestampKey);
    PutLookup(m2, TransformationKey, opt.transformation, FolderKey);
    PutLookup(m2, TransformationKey, opt.transformation, PublicIdKey);
  }

  /** Nothing but the timestamp and the three options is signed. */
  lemma ParamsToSignKeys(timestamp: string, opt: UploadImageOptions)
    ensures Keys(ParamsToSign(timestamp, opt)) <= {TimestampKey, FolderKey, PublicIdKey, TransformationKey}
  {
    var all := {TimestampKey, FolderKey, PublicIdKey, TransformationKey};
    assert Keys([]) == {};
    var m0 := Put([], TimestampKey, Some(timestamp));
    assert Keys(m0) <= all;
    var m1 := Put(m0, FolderKey, opt.folder);
    assert Keys(m1) <= all;
    var m2 := Put(m1, PublicIdKey, opt.publicId);
    assert Keys(m2) <= all;
    assert ParamsToSign(timestamp, opt) == Put(m2, TransformationKey, opt.transformation);
  }

  lemma ParamKeysDistinct()
    ensures TimestampKey != FolderKey && TimestampKey != PublicIdKey && TimestampKey != TransformationKey
    ensures FolderKey != PublicIdKey && FolderKey != TransformationKey && PublicIdKey != TransformationKey
  {
    assert TimestampKey[0] == 't' && FolderKey[0] == 'f' && PublicIdKey[0] == 'p';
    assert TransformationKey[1] == 'r' && TimestampKey[1] == 'i';
  }

  /** `if let Some(v) = o { map.insert(key, v) }`. */
  function Put(kvs: seq<(string, string)>, key: string, o: Option<string>): (r: seq<(string, string)>)
    requires Ordered(kvs)
    ensures Ordered(r)
    ensures Keys(r) == Keys(kvs) + (if o.Some? then {key} else {})
  {
    if o.Some? then
      InsertKeys(kvs, key, o.value);
      InsertOrdered(kvs, key, o.value);
      Insert(kvs, key, o.value)
    else kvs
  }

  /** After a put, `key` maps to the option's value when it is set, and
      every other key is as before. */
  lemma PutLookup(kvs: seq<(string, string)>, key: string, o: Option<string>, other: string)
    requires Ordered(kvs)
    ensures Lookup(Put(kvs, key, o), key) == if o.Some? then o else Lookup(kvs, key)
    ensures other != key ==> Lookup(Put(kvs, key, o), other) == Lookup(kvs, other)
  {
    if o.Some? {
      InsertLookup(kvs, key, o.value, other);
    }
  }

  /** One entry rendered as `key=value`. */
  function Pair(kv: (string, string)): string {
    kv.0 + "=" + kv.1
  }

  function Pairs(kvs: seq<(string, string)>): (r: seq<string>)
    ensures |r| == |kvs| && forall i :: 0 <= i < |kvs| ==> r[i] == Pair(kvs[i])
  {
    seq(|kvs|, i requires 0 <= i < |kvs| => Pair(kvs[i]))
  }

  /** The string to sign: the entries as `key=value` joined by `&`, then the
      API secret with no separator. */
  function StringToSign(kvs: seq<(string, string)>, secret: string): string {
    Join(Pairs(kvs), "&") + secret
  }

  /** Appending a piece to a joined list adds one separator before it,
      unless the list was empty. */
  lemma {:induction false} JoinSnoc(xs: seq<string>, x: string, sep: string)
    ensures Join(xs + [x], sep) == if |xs| == 0 then x else Join(xs, sep) + sep + x
    decreases |xs|
  {
    if |xs| > 1 {
      assert (xs + [x])[1..] == xs[1..] + [x];
      JoinSnoc(xs[1..], x, sep);
    } else if |xs| == 1 {
      assert (xs + [x])[1..] == [x];
    }
  }

  /** One more entry adds `&` and its `key=value` to the joined entries
      before it, or stands alone when it is the first. */
  lemma JoinStep(kvs: seq<(string, string)>, i: nat)
    requires i < |kvs|
    ensures Join(Pairs(kvs[..i + 1]), "&") ==
      (if i == 0 then "" else Join(Pairs(kvs[..i]), "&") + "&") + (kvs[i].0 + "=" + kvs[i].1)
  {
    assert Pairs(kvs[..i + 1]) == Pairs(kvs[..i]) + [Pair(kvs[i])];
    JoinSnoc(Pairs(kvs[..i]), Pair(kvs[i]), "&");
  }

  /** The loop of `form_builder`: push `&` before every entry but the
      first, then `key=value`, adding each entry to the form as it goes;
      then append the secret. */
  method BuildToSign(kvs: seq<(string, string)>, secret: string) returns (toSign: string, fields: seq<(string, string)>)
    ensures toSign == Join(Pairs(kvs), "&") + secret
    ensures fields == kvs
  {
    toSign := "";
    fields := [];
    var i := 0;
    while i < |kvs|
      invariant 0 <= i <= |kvs|
      invariant toSign == Join(Pairs(kvs[..i]), "&")
      invariant fields == kvs[..i]
    {
      JoinStep(kvs, i);
      if i > 0 {
        toSign := toSign + "&";
      }
      toSign := toSign + (kvs[i].0 + "=" + kvs[i].1);
      fields := fields + [kvs[i]];
      assert kvs[..i + 1] == kvs[..i] + [kvs[i]];
      i := i + 1;
    }
    assert kvs[..i] == kvs;
    toSign := toSign + secret;
  }

  /** `form_builder` at time `now` with `sha1` standing for the hex SHA-1
      digest: the signed parameters, then the signature over the string to
      sign, then the API key, which is not signed. */
  method FormBuilder(opt: UploadImageOptions, env: CloudinaryEnv, now: int, sha1: string -> string)
    returns (form: seq<(string, string)>)
    ensures |form| >= 3
    ensures form[..|form| - 2] == ParamsToSign(IntToString(now), opt)
    ensures form[|form| - 2] == ("signature", sha1(StringToSign(ParamsToSign(IntToString(now), opt), env.apiSecret)))
    ensures form[|form| - 1] == ("api_key", env.apiKey)
  {
    var params := ParamsToSign(IntToString(now), opt);
    ParamsToSignValues(IntToString(now), opt);
    var toSign, fields := BuildToSign(params, env.apiSecret);
    form := fields + [("signature", sha1(toSign)), ("api_key", env.apiKey)];
    assert form[..|form| - 2] == fields;
  }

  /** The string to sign starts with the first parameter, separates every
      two parameters with one `&`, and ends with the secret. */
  lemma StringToSignShape(kvs: seq<(string, string)>, k: string, v: string, secret: string)
    ensures StringToSign([(k, v)], secret) == k + "=" + v + secret
    ensures StringToSign(kvs + [(k, v)], secret) ==
      (if |kvs| == 0 then "" else Join(Pairs(kvs), "&") + "&") + k + "=" + v + secret
  {
    assert Pairs(kvs + [(k, v)]) == Pairs(kvs) + [Pair((k, v))];
    JoinSnoc(Pairs(kvs), Pair((k, v)), "&");
  }
}

=== FILE: crew_operation.dfy ===
/** The crew operation use case: `join`, `leave` and `kick_member`.  Each is
    a read of the mission and its crew count, a chain of checks, a membership
    write and possibly an implicit status edit sent through the mission
    management repository's `edit`. */
module CrewOperation {
  import opened Results
  import opened MissionStatuses
  import opened Entities
  import opened Database
  import opened MissionManagement
  import opened CrewStore
  import opened MissionViewing

  /** The changeset of an implicit status change: the chief is written back
      unchanged and only the status is set. */
  function StatusEdit(chiefId: int, st: Status): EditMissionEntity {
    EditMissionEntity(chiefId, None, Some(st), None, None, None, None)
  }

  /** The mission after a status edit: only the status differs. */
  lemma StatusEditOnlySetsStatus(m: Mission, st: Status)
    ensures ApplyEdit(m, StatusEdit(m.chiefId, st)) == m.(status := st)
  {
  }

  /** `join` gets past the chief and status checks. */
  predicate JoinChecksPass(s: Store, missionId: int, brawlerId: int) {
    Live(s, missionId) && s.missions[missionId].chiefId != brawlerId
    && s.missions[missionId].status in {Open, Failed}
  }

  /** `join`.  The chief is refused first, then any status but Open and
      Failed.  A full mission gets a Failed edit and "Mission is full"; the
      edit only matches Open rows, so on a full mission that is already
      Failed the edit's NotFound is returned instead.  Otherwise the
      membership is inserted and no status edit is made, even when the join
      takes the last place. */
  function Join(s: Store, missionId: int, brawlerId: int): (r: Step<()>)
    ensures !Live(s, missionId) ==> r == Step(s, Err(NotFound))
    ensures Live(s, missionId) && s.missions[missionId].chiefId == brawlerId ==> r == Step(s, Err(ChiefCannotJoin))
    ensures Live(s, missionId) && s.missions[missionId].chiefId != brawlerId && s.missions[missionId].status !in {Open, Failed}
      ==> r == Step(s, Err(NotJoinable))
    ensures JoinChecksPass(s, missionId, brawlerId) && CrewCount(s, missionId) >= s.missions[missionId].maxCrew
      && s.missions[missionId].status == Open
      ==> r == Step(s.(missions := s.missions[missionId := s.missions[missionId].(status := Failed)]), Err(MissionFull))
    ensures JoinChecksPass(s, missionId, brawlerId) && CrewCount(s, missionId) >= s.missions[missionId].maxCrew
      && s.missions[missionId].status == Failed
      ==> r == Step(s, Err(NotFound))
    ensures JoinChecksPass(s, missionId, brawlerId) && CrewCount(s, missionId) < s.missions[missionId].maxCrew
      && (missionId, brawlerId) in s.crew
      ==> r == Step(s, Err(AlreadyJoined))
    ensures JoinChecksPass(s, missionId, brawlerId) && CrewCount(s, missionId) < s.missions[missionId].maxCrew
      && (missionId, brawlerId) !in s.crew && brawlerId !in s.brawlers
      ==> r == Step(s, Err(ForeignKeyViolation))
    ensures r.result.Ok? <==>
      && JoinChecksPass(s, missionId, brawlerId)
      && CrewCount(s, missionId) < s.missions[missionId].maxCrew
      && (missionId, brawlerId) !in s.crew
      && brawlerId in s.brawlers
    ensures r.result.Ok? ==> r.store == s.(crew := s.crew + {(missionId, brawlerId)})
    ensures r.store.crew != s.crew ==> r.result.Ok?
  {
    match ViewDetailIn(s, missionId)
    case Err(e) => Step(s, Err(e))
    case Ok(detail) =>
      var mission := detail.mission;
      var crewCount := CrewCount(s, missionId);
      if mission.chiefId == brawlerId then
        Step(s, Err(ChiefCannotJoin))
      else if !(Display(mission.status) == Display(Open) || Display(mission.status) == Display(Failed)) then
        Step(s, Err(NotJoinable))
      else if crewCount >= mission.maxCrew then
        var edited := Edit(s, missionId, StatusEdit(mission.chiefId, Failed));
        StatusEditOnlySetsStatus(mission, Failed);
        if edited.result.Err? then Step(edited.store, Err(edited.result.error))
        else Step(edited.store, Err(MissionFull))
      else
        JoinCrew(s, missionId, brawlerId)
  }

  /** `leave` gets past its status check. */
  predicate LeaveChecksPass(s: Store, missionId: int) {
    Live(s, missionId) && s.missions[missionId].status in {Open, Failed, Completed}
  }

  /** `leave`.  Only InProgress refuses; otherwise the membership is deleted
      (a missing one is no error) and an Open edit is sent when the mission
      was Open, or Failed with the pre-leave count at capacity.  On an Open
      mission that edit rewrites the same values; on a Failed one it matches
      no row and its NotFound is returned after the delete.  So no mission
      row ever changes. */
  function Leave(s: Store, missionId: int, brawlerId: int): (r: Step<()>)
    ensures !Live(s, missionId) ==> r == Step(s, Err(NotFound))
    ensures Live(s, missionId) && s.missions[missionId].status == InProgress ==> r == Step(s, Err(NotLeavable))
    ensures LeaveChecksPass(s, missionId) ==> r.store == s.(crew := s.crew - {(missionId, brawlerId)})
    ensures LeaveChecksPass(s, missionId) ==>
      (r.result.Ok? <==> !(s.missions[missionId].status == Failed && CrewCount(s, missionId) >= s.missions[missionId].maxCrew))
    ensures r.result.Err? ==> r.result.error in {NotFound, NotLeavable}
    ensures r.store.missions == s.missions
  {
    match ViewDetailIn(s, missionId)
    case Err(e) => Step(s, Err(e))
    case Ok(detail) =>
      var mission := detail.mission;
      var crewCount := CrewCount(s, missionId);
      if !(Display(mission.status) == Display(Open) || Display(mission.status) == Display(Failed)
           || Display(mission.status) == Display(Completed)) then
        Step(s, Err(NotLeavable))
      else
        var left := LeaveCrew(s, missionId, brawlerId);
        var shouldSetOpen :=
          if Display(mission.status) == Display(Open) then true
          else if Display(mission.status) == Display(Failed) then crewCount >= mission.maxCrew
          else false;
        if shouldSetOpen then
          var edited := Edit(left, missionId, StatusEdit(mission.chiefId, Open));
          StatusEditOnlySetsStatus(mission, Open);
          if edited.result.Err? then Step(edited.store, Err(edited.result.error))
          else Step(edited.store, Ok(()))
        else
          Step(left, Ok(()))
  }

  /** `kick_member` gets past its three checks. */
  predicate KickChecksPass(s: Store, missionId: int, target: int, requester: int) {
    Live(s, missionId) && s.missions[missionId].chiefId == requester && target != requester
    && s.missions[missionId].status in {Open, Failed}
  }

  /** `kick_member`.  The checks run in the order requester is chief, target
      is not the requester, status is Open or Failed, all before the delete.
      On a Failed mission the crew is recounted after the delete and an Open
      edit is sent only if that count is still at capacity; the edit matches
      no Failed row, so it can only fail.  No mission row ever changes. */
  function KickMember(s: Store, missionId: int, target: int, requester: int): (r: Step<()>)
    ensures !Live(s, missionId) ==> r == Step(s, Err(NotFound))
    ensures Live(s, missionId) && s.missions[missionId].chiefId != requester ==> r == Step(s, Err(OnlyChiefCanKick))
    ensures Live(s, missionId) && s.missions[missionId].chiefId == requester && target == requester
      ==> r == Step(s, Err(ChiefCannotKickSelf))
    ensures Live(s, missionId) && s.missions[missionId].chiefId == requester && target != requester
      && s.missions[missionId].status !in {Open, Failed}
      ==> r == Step(s, Err(CannotKickInStatus))
    ensures KickChecksPass(s, missionId, target, requester) ==> r.store == s.(crew := s.crew - {(missionId, target)})
    ensures KickChecksPass(s, missionId, target, requester) ==>
      (r.result.Ok? <==> !(s.missions[missionId].status == Failed && CrewCount(r.store, missionId) >= s.missions[missionId].maxCrew))
    ensures KickChecksPass(s, missionId, target, requester) && r.result.Err? ==> r.result == Err(NotFound)
    ensures r.store.missions == s.missions
  {
    match ViewDetailIn(s, missionId)
    case Err(e) => Step(s, Err(e))
    case Ok(detail) =>
      var mission := detail.mission;
      if mission.chiefId != requester then
        Step(s, Err(OnlyChiefCanKick))
      else if target == requester then
        Step(s, Err(ChiefCannotKickSelf))
      else if !(Display(mission.status) == Display(Open) || Display(mission.status) == Display(Failed)) then
        Step(s, Err(CannotKickInStatus))
      else
        var left := LeaveCrew(s, missionId, target);
        if Display(mission.status) == Display(Failed) then
          var crewCount := CrewCount(left, missionId);
          if crewCount >= mission.maxCrew then
            var edited := Edit(left, missionId, StatusEdit(mission.chiefId, Open));
            if edited.result.Err? then Step(edited.store, Err(edited.result.error))
            else Step(edited.store, Ok(()))
          else
            Step(left, Ok(()))
        else
          Step(left, Ok(()))
  }

  /** No chief is a crew member of their own mission. */
  ghost predicate ChiefNotInCrew(s: Store) {
    forall p :: p in s.crew && p.0 in s.missions ==> s.missions[p.0].chiefId != p.1
  }

  /** No mission has more members than its capacity. */
  ghost predicate WithinCapacity(s: Store) {
    forall id :: id in s.missions ==> CrewCount(s, id) <= s.missions[id].maxCrew
  }

  /** A join keeps the store constraints and keeps chiefs out of their own
      crews. */
  lemma JoinKeepsInvariants(s: Store, missionId: int, brawlerId: int)
    requires Valid(s) && ChiefNotInCrew(s)
    ensures Valid(Join(s, missionId, brawlerId).store) && ChiefNotInCrew(Join(s, missionId, brawlerId).store)
  {
  }

  /** So does a leave. */
  lemma LeaveKeepsInvariants(s: Store, missionId: int, brawlerId: int)
    requires Valid(s) && ChiefNotInCrew(s)
    ensures Valid(Leave(s, missionId, brawlerId).store) && ChiefNotInCrew(Leave(s, missionId, brawlerId).store)
  {
  }

  /** And so does a kick. */
  lemma KickKeepsInvariants(s: Store, missionId: int, brawlerId: int, requester: int)
    requires Valid(s) && ChiefNotInCrew(s)
    ensures Valid(KickMember(s, missionId, brawlerId, requester).store)
    ensures ChiefNotInCrew(KickMember(s, missionId, brawlerId, requester).store)
  {
  }

  /** A join never takes a mission past its capacity: it succeeds only below
      capacity, and a refused join changes no membership. */
  lemma JoinKeepsCapacity(s: Store, missionId: int, brawlerId: int)
    requires WithinCapacity(s)
    ensures WithinCapacity(Join(s, missionId, brawlerId).store)
  {
    var r := Join(s, missionId, brawlerId);
    if r.result.Ok? {
      forall id | id in r.store.missions
        ensures CrewCount(r.store, id) <= r.store.missions[id].maxCrew
      {
        CrewCountAfterInsert(s, missionId, brawlerId, id);
      }
    } else {
      assert r.store.crew == s.crew;
      forall id | id in r.store.missions
        ensures CrewCount(r.store, id) <= r.store.missions[id].maxCrew
      {
        assert CrewCount(r.store, id) == CrewCount(s, id);
      }
    }
  }

  /** Joining the same mission twice: the second join is refused. */
  lemma JoinTwiceFails(s: Store, missionId: int, brawlerId: int)
    requires Join(s, missionId, brawlerId).result.Ok?
    ensures Join(Join(s, missionId, brawlerId).store, missionId, brawlerId).result.Err?
  {
  }

  /** Leaving right after a successful join restores the store exactly.  The
      leave reports success unless the join filled a Failed mission, where the
      reopening edit fails. */
  lemma JoinThenLeave(s: Store, missionId: int, brawlerId: int)
    requires Join(s, missionId, brawlerId).result.Ok?
    ensures Leave(Join(s, missionId, brawlerId).store, missionId, brawlerId).store == s
    ensures Leave(Join(s, missionId, brawlerId).store, missionId, brawlerId).result.Ok? <==>
      !(s.missions[missionId].status == Failed && CrewCount(s, missionId) + 1 == s.missions[missionId].maxCrew)
  {
    var joined := Join(s, missionId, brawlerId);
    assert joined.store.crew - {(missionId, brawlerId)} == s.crew;
    CrewCountAfterInsert(s, missionId, brawlerId, missionId);
  }

  // ---- Corrected behaviour of the implicit status changes ----

  /** A status write that reaches the live row whatever its current status,
      as the implicit status changes evidently intend; `edit` only reaches
      Open rows. */
  function ForceStatus(s: Store, missionId: int, st: Status): (r: Store)
    requires Live(s, missionId)
    ensures r.missions.Keys == s.missions.Keys && r.missions[missionId].status == st
    ensures forall id :: id in s.missions && id != missionId ==> r.missions[id] == s.missions[id]
  {
    s.(missions := s.missions[missionId := s.missions[missionId].(status := st)])
  }

  /** `join` as evidently intended: a full mission always answers "Mission
      is full", and is marked Failed when it was Open. */
  function JoinReportsFull(s: Store, missionId: int, brawlerId: int): (r: Step<()>)
    ensures JoinChecksPass(s, missionId, brawlerId) && CrewCount(s, missionId) >= s.missions[missionId].maxCrew
      ==> (r.result == Err(MissionFull) && Live(r.store, missionId) && r.store.missions[missionId].status == Failed
           && r.store.crew == s.crew)
  {
    if JoinChecksPass(s, missionId, brawlerId) && CrewCount(s, missionId) >= s.missions[missionId].maxCrew
    then
      var marked := if s.missions[missionId].status == Open then ForceStatus(s, missionId, Failed) else s;
      Step(marked, Err(MissionFull))
    else
      Join(s, missionId, brawlerId)
  }

  /** The corrected join differs from `join` only on a full mission that is
      already Failed. */
  lemma JoinReportsFullAgrees(s: Store, missionId: int, brawlerId: int)
    ensures JoinReportsFull(s, missionId, brawlerId) == Join(s, missionId, brawlerId) <==>
      !(JoinChecksPass(s, missionId, brawlerId) && CrewCount(s, missionId) >= s.missions[missionId].maxCrew
        && s.missions[missionId].status == Failed)
  {
  }

  /** As written: joining a full Failed mission answers NotFound, not
      "Mission is full". */
  lemma JoinFullFailedReportsNotFound(s: Store, missionId: int, brawlerId: int)
    requires JoinChecksPass(s, missionId, brawlerId) && s.missions[missionId].status == Failed
    requires CrewCount(s, missionId) >= s.missions[missionId].maxCrew
    ensures Join(s, missionId, brawlerId).result == Err(NotFound)
    ensures JoinReportsFull(s, missionId, brawlerId).result == Err(MissionFull)
  {
  }

  /** `leave` as evidently intended: leaving a Failed mission that was at
      capacity reopens it, and the leave succeeds. */
  function LeaveReopening(s: Store, missionId: int, brawlerId: int): (r: Step<()>)
    ensures LeaveChecksPass(s, missionId) && s.missions[missionId].status == Failed
      && CrewCount(s, missionId) >= s.missions[missionId].maxCrew
      ==> r.result == Ok(()) && Live(r.store, missionId) && r.store.missions[missionId].status == Open
    ensures r.store.crew == Leave(s, missionId, brawlerId).store.crew
  {
    if LeaveChecksPass(s, missionId) && s.missions[missionId].status == Failed
       && CrewCount(s, missionId) >= s.missions[missionId].maxCrew
    then Step(ForceStatus(LeaveCrew(s, missionId, brawlerId), missionId, Open), Ok(()))
    else Leave(s, missionId, brawlerId)
  }

  /** As written: after leaving a Failed mission that was at capacity, the
      membership is gone but the mission stays Failed and the caller gets
      NotFound; the corrected leave reopens it. */
  lemma LeaveNeverReopens(s: Store, missionId: int, brawlerId: int)
    requires LeaveChecksPass(s, missionId) && s.missions[missionId].status == Failed
    requires CrewCount(s, missionId) >= s.missions[missionId].maxCrew
    ensures Leave(s, missionId, brawlerId) == Step(LeaveCrew(s, missionId, brawlerId), Err(NotFound))
    ensures Leave(s, missionId, brawlerId).store.missions[missionId].status == Failed
    ensures LeaveReopening(s, missionId, brawlerId).store.missions[missionId].status == Open
  {
  }

  /** `kick_member` as evidently intended: a Failed mission that was at
      capacity before the kick is reopened. */
  function KickReopening(s: Store, missionId: int, target: int, requester: int): (r: Step<()>)
    ensures KickChecksPass(s, missionId, target, requester) && s.missions[missionId].status == Failed
      && CrewCount(s, missionId) >= s.missions[missionId].maxCrew
      ==> r.result == Ok(()) && Live(r.store, missionId) && r.store.missions[missionId].status == Open
    ensures r.store.crew == KickMember(s, missionId, target, requester).store.crew
  {
    if KickChecksPass(s, missionId, target, requester) && s.missions[missionId].status == Failed
       && CrewCount(s, missionId) >= s.missions[missionId].maxCrew
    then Step(ForceStatus(LeaveCrew(s, missionId, target), missionId, Open), Ok(()))
    else KickMember(s, missionId, target, requester)
  }

  /** As written: kicking a member out of a Failed mission that was exactly
      at capacity succeeds but leaves it Failed, because the recount after
      the delete is below capacity; the corrected kick reopens it. */
  lemma KickNeverReopens(s: Store, missionId: int, target: int, requester: int)
    requires KickChecksPass(s, missionId, target, requester) && s.missions[missionId].status == Failed
    requires (missionId, target) in s.crew && CrewCount(s, missionId) == s.missions[missionId].maxCrew
    ensures KickMember(s, missionId, target, requester).result == Ok(())
    ensures KickMember(s, missionId, target, requester).store.missions[missionId].status == Failed
    ensures KickReopening(s, missionId, target, requester).store.missions[missionId].status == Open
  {
    CrewCountAfterRemove(s, missionId, target, missionId);
  }

  /** As written, a kick from a Failed mission that is still at capacity
      after the delete (the target was no member, or the crew was over
      capacity) deletes the pair, keeps the mission Failed and answers the
      reopening edit's NotFound. */
  lemma KickStillFullReportsNotFound(s: Store, missionId: int, target: int, requester: int)
    requires KickChecksPass(s, missionId, target, requester) && s.missions[missionId].status == Failed
    requires CrewCount(LeaveCrew(s, missionId, target), missionId) >= s.missions[missionId].maxCrew
    ensures KickMember(s, missionId, target, requester) == Step(LeaveCrew(s, missionId, target), Err(NotFound))
    ensures KickMember(s, missionId, target, requester).store.missions[missionId].status == Failed
  {
  }

  /** The corrected join keeps the store constraints and keeps chiefs out
      of their own crews. */
  lemma CorrectedJoinKeepsInvariants(s: Store, missionId: int, brawlerId: int)
    requires Valid(s) && ChiefNotInCrew(s)
    ensures Valid(JoinReportsFull(s, missionId, brawlerId).store)
    ensures ChiefNotInCrew(JoinReportsFull(s, missionId, brawlerId).store)
  {
    JoinKeepsInvariants(s, missionId, brawlerId);
  }

  /** So does the corrected leave. */
  lemma CorrectedLeaveKeepsInvariants(s: Store, missionId: int, brawlerId: int)
    requires Valid(s) && ChiefNotInCrew(s)
    ensures Valid(LeaveReopening(s, missionId, brawlerId).store)
    ensures ChiefNotInCrew(LeaveReopening(s, missionId, brawlerId).store)
  {
    LeaveKeepsInvariants(s, missionId, brawlerId);
  }

  /** And so does the corrected kick. */
  lemma CorrectedKickKeepsInvariants(s: Store, missionId: int, target: int, requester: int)
    requires Valid(s) && ChiefNotInCrew(s)
    ensures Valid(KickReopening(s, missionId, target, requester).store)
    ensures ChiefNotInCrew(KickReopening(s, missionId, target, requester).store)
  {
    KickKeepsInvariants(s, missionId, target, requester);
  }
}

=== FILE: crew_store.dfy ===
/** The crew membership repository the crew use case calls.  Its Postgres
    implementation is not part of this model; it is modelled as a plain insert
    into and delete from crew_memberships, with the table's uniqueness and
    foreign-key constraints. */
module CrewStore {
  import opened Results
  import opened Database

  /** `INSERT INTO crew_memberships (mission_id, brawler_id)`. */
  function JoinCrew(s: Store, missionId: int, brawlerId: int): (r: Step<()>)
    ensures r.result.Ok? <==> (missionId, brawlerId) !in s.crew && missionId in s.missions && brawlerId in s.brawlers
    ensures r.result.Ok? ==> r.store.crew == s.crew + {(missionId, brawlerId)}
    ensures r.store.missions == s.missions && r.store.brawlers == s.brawlers && r.store.nextId == s.nextId
    ensures r.result.Err? ==> r.store == s
    ensures (missionId, brawlerId) in s.crew ==> r.result == Err(AlreadyJoined)
  {
    if (missionId, brawlerId) in s.crew then Step(s, Err(AlreadyJoined))
    else if missionId !in s.missions || brawlerId !in s.brawlers then Step(s, Err(ForeignKeyViolation))
    else Step(s.(crew := s.crew + {(missionId, brawlerId)}), Ok(()))
  }

  /** `DELETE FROM crew_memberships WHERE mission_id = $1 AND brawler_id = $2`;
      deleting nothing is not an error. */
  function LeaveCrew(s: Store, missionId: int, brawlerId: int): Store {
    s.(crew := s.crew - {(missionId, brawlerId)})
  }
}

=== FILE: dashboard.dfy ===
/** The dashboard repository: global counts, the recent missions, a user's
    own counts, a user's active missions and the missions open to a user. */
module Dashboard {
  import opened Results
  import opened MissionStatuses
  import opened Entities
  import opened Database
  import opened Queries
  import opened Listings
  import opened MissionManagement
  import opened CrewOperation
  import opened MissionOperation

  datatype DashboardStats = DashboardStats(
    totalMissions: nat,
    totalBrawlers: nat,
    openMissions: nat,
    activeMissions: nat)

  datatype UserDashboard = UserDashboard(
    myMissionsCount: nat,
    joinedMissionsCount: nat,
    successCount: nat,
    totalParticipated: nat)

  /** The ids of the live missions. */
  function LiveIds(s: Store): set<int> {
    set id | id in s.missions && !s.missions[id].deleted
  }

  /** The ids of the live missions with status `st`. */
  function StatusIds(s: Store, st: Status): set<int> {
    set id | id in s.missions && !s.missions[id].deleted && s.missions[id].status == st
  }

  /** `get_stats`: four independent counts.  Open and InProgress are
      disjoint sets of live missions, so together they never exceed the
      live total. */
  function GetStats(s: Store): (r: DashboardStats)
    ensures r.totalMissions == |LiveIds(s)| && r.totalBrawlers == |s.brawlers|
    ensures r.openMissions == |StatusIds(s, Open)| && r.activeMissions == |StatusIds(s, InProgress)|
    ensures r.openMissions + r.activeMissions <= r.totalMissions
  {
    var open := set id | id in s.missions && !s.missions[id].deleted && Display(s.missions[id].status) == "Open";
    var active := set id | id in s.missions && !s.missions[id].deleted && Display(s.missions[id].status) == "InProgress";
    assert open == StatusIds(s, Open);
    assert active == StatusIds(s, InProgress);
    assert open * active == {};
    assert open + active <= LiveIds(s);
    SubsetCard(open + active, LiveIds(s));
    DashboardStats(|LiveIds(s)|, |s.brawlers|, |open|, |active|)
  }

  lemma SubsetCard<T>(a: set<T>, b: set<T>)
    requires a <= b
    ensures |a| <= |b|
  {
    assert b == a + (b - a);
  }

  /** Starting an Open mission moves it from the open count to the active
      count and leaves the total alone. */
  lemma StartMovesOpenToActive(s: Store, missionId: int, chiefId: int, cap: nat, now: int)
    requires StartChecksPass(s, missionId, chiefId, cap) && s.missions[missionId].status == Open
    ensures var before := GetStats(s);
      var after := GetStats(StartMission(s, missionId, chiefId, cap, now).store);
      && after.totalMissions == before.totalMissions
      && after.openMissions == before.openMissions - 1
      && after.activeMissions == before.activeMissions + 1
  {
    var t := StartMission(s, missionId, chiefId, cap, now).store;
    assert LiveIds(t) == LiveIds(s);
    assert StatusIds(t, Open) == StatusIds(s, Open) - {missionId};
    assert StatusIds(t, InProgress) == StatusIds(s, InProgress) + {missionId};
  }

  /** The missions brawler `b` leads. */
  function MyMissions(s: Store, b: int): set<int> {
    set id | id in s.missions && s.missions[id].chiefId == b && !s.missions[id].deleted
  }

  /** Brawler `b`'s memberships, whatever state their missions are in. */
  function Memberships(s: Store, b: int): set<(int, int)> {
    set p | p in s.crew && p.1 == b
  }

  /** Brawler `b`'s memberships in Completed missions, soft-deleted or not. */
  function Successes(s: Store, b: int): set<(int, int)> {
    set p | p in s.crew && p.1 == b && p.0 in s.missions && s.missions[p.0].status == Completed
  }

  /** `get_user_dashboard`: the total is the sum of the led and joined
      counts (the same subqueries evaluated again), and the successes are
      among the memberships. */
  function GetUserDashboard(s: Store, b: int): (r: UserDashboard)
    ensures r.myMissionsCount == |MyMissions(s, b)| && r.joinedMissionsCount == |Memberships(s, b)|
    ensures r.successCount == |Successes(s, b)|
    ensures r.totalParticipated == r.joinedMissionsCount + r.myMissionsCount
    ensures r.successCount <= r.joinedMissionsCount
  {
    var mine := set id | id in s.missions && s.missions[id].chiefId == b && !s.missions[id].deleted;
    var joined := set p | p in s.crew && p.1 == b;
    var success := set p | p in s.crew && p.1 == b && p.0 in s.missions && Display(s.missions[p.0].status) == "Completed";
    assert success == Successes(s, b);
    SubsetCard(success, joined);
    var total := |set p | p in s.crew && p.1 == b| + |set id | id in s.missions && s.missions[id].chiefId == b && !s.missions[id].deleted|;
    UserDashboard(|mine|, |joined|, |success|, total)
  }

  /** Deleting a mission lowers its chief's led count but keeps every
      member's joined and success counts: those count memberships without
      looking at soft deletion. */
  lemma RemoveKeepsMemberCounts(s: Store, missionId: int, chiefId: int, b: int)
    requires Live(s, missionId) && s.missions[missionId].status == Open && s.missions[missionId].chiefId == chiefId
    ensures var after := GetUserDashboard(Remove(s, missionId, chiefId).store, b);
      && after.joinedMissionsCount == GetUserDashboard(s, b).joinedMissionsCount
      && after.successCount == GetUserDashboard(s, b).successCount
    ensures GetUserDashboard(Remove(s, missionId, chiefId).store, chiefId).myMissionsCount
      == GetUserDashboard(s, chiefId).myMissionsCount - 1
  {
    var t := Remove(s, missionId, chiefId).store;
    assert Successes(t, b) == Successes(s, b);
    assert MyMissions(t, chiefId) == MyMissions(s, chiefId) - {missionId};
  }

  /** The WHERE clause of `get_recent_missions`, with the chief join. */
  predicate RecentWhere(s: Store, m: Mission) {
    !m.deleted && m.chiefId in s.brawlers
  }

  /** The live missions, with their chief's brawler row. */
  function RecentPool(s: Store): set<Mission> {
    set m | m in MissionRows(s) && !m.deleted && m.chiefId in s.brawlers
  }

  /** `get_recent_missions`: the `limit` newest live missions by creation. */
  ghost function GetRecentMissions(s: Store, limit: int): (r: Result<seq<MissionModel>>)
    ensures r.Err? <==> limit < 0
    ensures r.Err? ==> r.error == NegativeLimit
    ensures r.Ok? ==> IsTopN(MissionsOf(r.value), RecentPool(s), CreatedAt, limit)
    ensures r.Ok? ==> forall i :: 0 <= i < |r.value| ==>
      (r.value[i].mission.chiefId in s.brawlers && r.value[i] == ModelRow(s, r.value[i].mission))
  {
    var p := (m: Mission) => RecentWhere(s, m);
    var r := Listing(s, p, CreatedAt, limit);
    if limit < 0 then r
    else
      TopOfQuery(s, p, RecentPool(s), CreatedAt, limit);
      r
  }

  /** The WHERE clause of `get_user_active_missions`, with the chief join;
      the status is compared as text. */
  predicate ActiveWhere(s: Store, b: int, m: Mission) {
    && !m.deleted && m.chiefId in s.brawlers
    && (m.chiefId == b || (m.id, b) in s.crew)
    && (Display(m.status) == "Open" || Display(m.status) == "InProgress")
  }

  /** The live missions brawler `b` leads or belongs to that are Open or
      InProgress. */
  function ActivePool(s: Store, b: int): set<Mission> {
    set m | m in MissionRows(s) && !m.deleted && m.chiefId in s.brawlers
      && (m.chiefId == b || (m.id, b) in s.crew) && m.status in {Open, InProgress}
  }

  lemma ActiveWhereSelectsPool(s: Store, b: int)
    ensures forall m :: m in MissionRows(s) ==> (ActiveWhere(s, b, m) <==> m in ActivePool(s, b))
  {
    forall m | m in MissionRows(s)
      ensures ActiveWhere(s, b, m) <==> m in ActivePool(s, b)
    {
      DisplayInjective(m.status, Open);
      DisplayInjective(m.status, InProgress);
    }
  }

  /** `get_user_active_missions`: the `limit` most recently updated of them. */
  ghost function GetUserActiveMissions(s: Store, b: int, limit: int): (r: Result<seq<MissionModel>>)
    ensures r.Err? <==> limit < 0
    ensures r.Err? ==> r.error == NegativeLimit
    ensures r.Ok? ==> IsTopN(MissionsOf(r.value), ActivePool(s, b), UpdatedAt, limit)
    ensures r.Ok? ==> forall i :: 0 <= i < |r.value| ==>
      (r.value[i].mission.chiefId in s.brawlers && r.value[i] == ModelRow(s, r.value[i].mission))
  {
    var p := (m: Mission) => ActiveWhere(s, b, m);
    var r := Listing(s, p, UpdatedAt, limit);
    if limit < 0 then r
    else
      ActiveWhereSelectsPool(s, b);
      TopOfQuery(s, p, ActivePool(s, b), UpdatedAt, limit);
      r
  }

  /** The WHERE clause of `get_open_missions_for_user`, with the chief join. */
  predicate OpenWhere(s: Store, b: int, m: Mission) {
    && !m.deleted && m.chiefId in s.brawlers && Display(m.status) == "Open"
    && m.chiefId != b && (m.id, b) !in s.crew && CrewCount(s, m.id) < m.maxCrew
  }

  /** The live Open missions brawler `b` neither leads nor belongs to, with
      a free place. */
  function OpenPool(s: Store, b: int): set<Mission> {
    set m | m in MissionRows(s) && !m.deleted && m.chiefId in s.brawlers && m.status == Open
      && m.chiefId != b && (m.id, b) !in s.crew && CrewCount(s, m.id) < m.maxCrew
  }

  lemma OpenWhereSelectsPool(s: Store, b: int)
    ensures forall m :: m in MissionRows(s) ==> (OpenWhere(s, b, m) <==> m in OpenPool(s, b))
  {
    forall m | m in MissionRows(s)
      ensures OpenWhere(s, b, m) <==> m in OpenPool(s, b)
    {
      DisplayInjective(m.status, Open);
    }
  }

  /** `get_open_missions_for_user`: the `limit` newest of them by creation. */
  ghost function GetOpenMissionsForUser(s: Store, b: int, limit: int): (r: Result<seq<MissionModel>>)
    ensures r.Err? <==> limit < 0
    ensures r.Err? ==> r.error == NegativeLimit
    ensures r.Ok? ==> IsTopN(MissionsOf(r.value), OpenPool(s, b), CreatedAt, limit)
    ensures r.Ok? ==> forall i :: 0 <= i < |r.value| ==>
      (r.value[i].mission.chiefId in s.brawlers && r.value[i] == ModelRow(s, r.value[i].mission))
  {
    var p := (m: Mission) => OpenWhere(s, b, m);
    var r := Listing(s, p, CreatedAt, limit);
    if limit < 0 then r
    else
      OpenWhereSelectsPool(s, b);
      TopOfQuery(s, p, OpenPool(s, b), CreatedAt, limit);
      r
  }

  /** A mission in a brawler's open pool is one that brawler can join. */
  lemma OpenPoolJoinable(s: Store, b: int, m: Mission)
    requires Valid(s) && b in s.brawlers && m in OpenPool(s, b)
    ensures Join(s, m.id, b).result.Ok?
  {
    RowUnderOwnId(s, m);
    assert JoinChecksPass(s, m.id, b);
  }

  /** Every mission offered to a brawler is one that brawler can join. */
  lemma OfferedMissionsAreJoinable(s: Store, b: int, limit: int)
    requires Valid(s) && b in s.brawlers && limit >= 0
    ensures forall i :: 0 <= i < |GetOpenMissionsForUser(s, b, limit).value| ==>
      Join(s, GetOpenMissionsForUser(s, b, limit).value[i].mission.id, b).result.Ok?
  {
    var rows := GetOpenMissionsForUser(s, b, limit).value;
    forall i | 0 <= i < |rows|
      ensures Join(s, rows[i].mission.id, b).result.Ok?
    {
      assert MissionsOf(rows)[i] in OpenPool(s, b);
      OpenPoolJoinable(s, b, rows[i].mission);
    }
  }

  /** Joining an Open mission puts it among the joiner's active missions. */
  lemma JoinedMissionIsActive(s: Store, missionId: int, b: int)
    requires Valid(s) && Join(s, missionId, b).result.Ok?
    requires s.missions[missionId].status == Open && s.missions[missionId].chiefId in s.brawlers
    ensures var t := Join(s, missionId, b).store;
      t.missions[missionId] in ActivePool(t, b)
    ensures var t := Join(s, missionId, b).store;
      t.missions[missionId] !in OpenPool(t, b)
  {
    var t := Join(s, missionId, b).store;
    assert t.missions[missionId] in MissionRows(t);
    assert (missionId, b) in t.crew;
  }
}

=== FILE: database.dfy ===
/** The in-memory store standing in for the Postgres database: the missions
    table, the crew_memberships table and the brawlers table. */
module Database {
  import opened Results
  import opened MissionStatuses
  import opened Entities

  /** `nextId` is the missions id sequence; memberships are
      `(mission_id, brawler_id)` pairs, unique by construction. */
  datatype Store = Store(
    missions: map<int, Mission>,
    crew: set<(int, int)>,
    brawlers: map<int, Brawler>,
    nextId: int)

  /** A store step: the store after the call (including writes made before an
      error) and what the call returned. */
  datatype Step<+T> = Step(store: Store, result: Result<T>)

  /** The constraints the database keeps: rows sit under their own id, ids
      come from the sequence, and memberships reference existing missions and
      brawlers. */
  ghost predicate Valid(s: Store) {
    && (forall id :: id in s.missions ==> s.missions[id].id == id && id < s.nextId)
    && (forall b :: b in s.brawlers ==> s.brawlers[b].id == b)
    && (forall p :: p in s.crew ==> p.0 in s.missions && p.1 in s.brawlers)
  }

  /** The rows of the missions table, soft-deleted ones included. */
  function MissionRows(s: Store): set<Mission> {
    set id | id in s.missions :: s.missions[id]
  }

  /** The mission exists and is not soft-deleted (`deleted_at IS NULL`). */
  predicate Live(s: Store, id: int) {
    id in s.missions && !s.missions[id].deleted
  }

  /** The membership rows of one mission. */
  function CrewRows(crew: set<(int, int)>, missionId: int): set<(int, int)> {
    set p | p in crew && p.0 == missionId
  }

  /** `SELECT COUNT(*) FROM crew_memberships WHERE mission_id = $1`. */
  function CrewCount(s: Store, missionId: int): nat {
    |CrewRows(s.crew, missionId)|
  }

  /** Adding a membership of `missionId` that was not there adds one to its count
      and leaves every other mission's count alone. */
  lemma CrewCountAfterInsert(s: Store, missionId: int, brawlerId: int, other: int)
    requires (missionId, brawlerId) !in s.crew
    ensures CrewCount(s.(crew := s.crew + {(missionId, brawlerId)}), other)
            == CrewCount(s, other) + (if other == missionId then 1 else 0)
  {
    var after := s.(crew := s.crew + {(missionId, brawlerId)});
    if other == missionId {
      assert CrewRows(after.crew, other) == CrewRows(s.crew, other) + {(missionId, brawlerId)};
    } else {
      assert CrewRows(after.crew, other) == CrewRows(s.crew, other);
    }
  }

  /** Removing a membership takes one off its mission's count when it was
      there, and changes nothing otherwise. */
  lemma CrewCountAfterRemove(s: Store, missionId: int, brawlerId: int, other: int)
    ensures CrewCount(s.(crew := s.crew - {(missionId, brawlerId)}), other)
            == CrewCount(s, other) - (if other == missionId && (missionId, brawlerId) in s.crew then 1 else 0)
  {
    var after := s.(crew := s.crew - {(missionId, brawlerId)});
    assert CrewRows(after.crew, other) == CrewRows(s.crew, other) - {(missionId, brawlerId)};
  }

  /** In a valid store every mission row sits under its own id. */
  lemma RowUnderOwnId(s: Store, m: Mission)
    requires Valid(s) && m in MissionRows(s)
    ensures m.id in s.missions && s.missions[m.id] == m
  {
  }
}

=== FILE: entities.dfy ===
/** The records stored in and read from the database.  The Rust structs of
    this snapshot disagree with each other about the columns (the use cases
    read `max_crew`, `duration` and `deadline`, which some structs lack), so
    each record here carries the union of the columns its users touch. */
module Entities {
  import opened Results
  import opened MissionStatuses

  /** A row of the missions table.  `deleted` stands for `deleted_at IS NOT
      NULL`; times are seconds since the epoch. */
  datatype Mission = Mission(
    id: int,
    chiefId: int,
    name: string,
    description: Option<string>,
    status: Status,
    maxCrew: int,
    duration: Option<int>,    // minutes
    deadline: Option<int>,
    deleted: bool,
    createdAt: int,
    updatedAt: int)

  /** A row of the brawlers (users) table, without the credentials. */
  datatype Brawler = Brawler(id: int, username: string, displayName: string, avatarUrl: Option<string>)

  /** The values inserted for a new mission; the database fills in the id,
      the timestamps and leaves `deleted_at` and `deadline` NULL. */
  datatype AddMissionEntity = AddMissionEntity(
    chiefId: int,
    name: string,
    status: Status,
    description: Option<string>,
    maxCrew: int,
    duration: Option<int>)

  /** A Diesel changeset: `chief_id` is always written, every `None` field is
      left as it is and every `Some(v)` field is set to `v`. */
  datatype EditMissionEntity = EditMissionEntity(
    chiefId: int,
    name: Option<string>,
    status: Option<Status>,
    description: Option<string>,
    maxCrew: Option<int>,
    deadline: Option<int>,
    duration: Option<int>)

  /** A mission as presented to clients: the row, the chief's display name
      when the query joins it in, and the live crew count. */
  datatype MissionModel = MissionModel(mission: Mission, chiefDisplayName: Option<string>, crewCount: int)

  /** One crew roster line. */
  datatype BrawlerModel = BrawlerModel(
    displayName: string,
    avatarUrl: string,
    missionSuccessCount: int,
    missionJoinedCount: int)
}

=== FILE: listings.dfy ===
/** The listing queries of the dashboard and brawlers repositories: the
    missions a WHERE clause accepts, joined with their chief's brawler row,
    newest first, cut at a `LIMIT`, each with its live crew count. */
module Listings {
  import opened Results
  import opened Entities
  import opened Database
  import opened Queries

  /** One listing row: the mission, its chief's display name
      (`INNER JOIN brawlers b ON b.id = m.chief_id`) and its crew count. */
  function ModelRow(s: Store, m: Mission): (r: MissionModel)
    requires m.chiefId in s.brawlers
    ensures r.mission == m && r.crewCount == CrewCount(s, m.id)
    ensures r.chiefDisplayName == Some(s.brawlers[m.chiefId].displayName)
  {
    MissionModel(m, Some(s.brawlers[m.chiefId].displayName), CrewCount(s, m.id))
  }

  function MissionsOf(rows: seq<MissionModel>): (r: seq<Mission>)
    ensures |r| == |rows| && forall i :: 0 <= i < |rows| ==> r[i] == rows[i].mission
  {
    seq(|rows|, i requires 0 <= i < |rows| => rows[i].mission)
  }

  function Min(a: int, b: int): int {
    if a <= b then a else b
  }

  /** `ms` is a correct answer to "the `n` newest members of `pool` by key
      `k`": drawn from the pool, each at most once, newest first, as many as
      the limit allows, and no pool member left out is newer than one kept. */
  ghost predicate IsTopN(ms: seq<Mission>, pool: set<Mission>, k: OrderKey, n: nat) {
    && (forall i :: 0 <= i < |ms| ==> ms[i] in pool)
    && (forall i, j :: 0 <= i < j < |ms| ==> ms[i] != ms[j])
    && SortedDesc(ms, k)
    && |ms| == Min(n, |pool|)
    && (forall m, i :: m in pool && m !in ms && 0 <= i < |ms| ==> KeyOf(ms[i], k) >= KeyOf(m, k))
  }

  /** A sequence holding each member of `pool` exactly once and nothing else
      is as long as the pool. */
  lemma CountsMatchPool(xs: seq<Mission>, pool: set<Mission>)
    requires forall m :: multiset(xs)[m] == if m in pool then 1 else 0
    ensures |xs| == |pool|
  {
    assert multiset(xs) == multiset(pool);
    assert |multiset(xs)| == |xs|;
  }

  /** A newest-first sequence holding each pool member exactly once, cut at
      `n`, is the top `n` of the pool. */
  lemma TopOfSorted(xs: seq<Mission>, pool: set<Mission>, k: OrderKey, n: nat)
    requires SortedDesc(xs, k)
    requires forall m :: multiset(xs)[m] == if m in pool then 1 else 0
    ensures IsTopN(Limit(xs, n), pool, k, n)
  {
    var ms := Limit(xs, n);
    CountsMatchPool(xs, pool);
    forall i | 0 <= i < |ms|
      ensures ms[i] in pool
    {
      assert ms[i] == xs[i];
      assert multiset(xs)[xs[i]] > 0;
    }
    forall i, j | 0 <= i < j < |ms|
      ensures ms[i] != ms[j]
    {
      NoRepeats(xs, i, j);
    }
    SortedPrefix(xs, ms, k);
    forall m, i | m in pool && m !in ms && 0 <= i < |ms|
      ensures KeyOf(ms[i], k) >= KeyOf(m, k)
    {
      LaterThanCut(xs, ms, m, k);
      assert ms[i] == xs[i];
    }
  }

  /** A pool member missing from a prefix of a newest-first sequence that
      holds it is no newer than any row of the prefix. */
  lemma LaterThanCut(xs: seq<Mission>, ms: seq<Mission>, m: Mission, k: OrderKey)
    requires SortedDesc(xs, k) && ms <= xs
    requires multiset(xs)[m] > 0 && m !in ms
    ensures forall i :: 0 <= i < |ms| ==> KeyOf(ms[i], k) >= KeyOf(m, k)
  {
    assert m in xs;
    var j :| 0 <= j < |xs| && xs[j] == m;
    assert forall t :: 0 <= t < |ms| ==> ms[t] == xs[t] && ms[t] != m;
    assert j >= |ms|;
    forall i | 0 <= i < |ms|
      ensures KeyOf(ms[i], k) >= KeyOf(m, k)
    {
      assert ms[i] == xs[i];
    }
  }

  /** A query answer cut at `n` is the top `n` of the accepted rows, once the
      WHERE clause is shown to accept exactly the pool. */
  lemma TopOfQuery(s: Store, p: Mission -> bool, pool: set<Mission>, k: OrderKey, n: nat)
    requires forall m :: m in pool ==> m in MissionRows(s)
    requires forall m :: m in MissionRows(s) ==> (p(m) <==> m in pool)
    ensures IsTopN(Limit(Query(s, p, k), n), pool, k, n)
  {
    var xs := Query(s, p, k);
    assert forall m :: multiset(xs)[m] == if m in pool then 1 else 0;
    TopOfSorted(xs, pool, k, n);
  }

  /** Without a limit, a query returns each member of the pool its WHERE
      clause accepts, and nothing twice. */
  lemma AllOfQuery(s: Store, p: Mission -> bool, pool: set<Mission>, k: OrderKey)
    requires forall m :: m in pool ==> m in MissionRows(s)
    requires forall m :: m in MissionRows(s) ==> (p(m) <==> m in pool)
    ensures forall m :: m in Query(s, p, k) <==> m in pool
    ensures forall i, j :: 0 <= i < j < |Query(s, p, k)| ==> Query(s, p, k)[i] != Query(s, p, k)[j]
  {
    var xs := Query(s, p, k);
    forall m
      ensures m in xs <==> m in pool
    {
      assert multiset(xs)[m] == if m in MissionRows(s) && p(m) then 1 else 0;
      assert m in xs <==> multiset(xs)[m] > 0;
    }
    assert forall m :: multiset(xs)[m] <= 1;
    forall i, j | 0 <= i < j < |xs|
      ensures xs[i] != xs[j]
    {
      NoRepeats(xs, i, j);
    }
  }

  /** Every row a query returns is one its WHERE clause accepts. */
  lemma QueryRowsAccepted(s: Store, p: Mission -> bool, k: OrderKey, n: nat)
    ensures forall i :: 0 <= i < |Limit(Query(s, p, k), n)| ==> p(Limit(Query(s, p, k), n)[i])
  {
    var xs := Query(s, p, k);
    var ms := Limit(xs, n);
    forall i | 0 <= i < |ms|
      ensures p(ms[i])
    {
      assert ms[i] == xs[i];
      assert multiset(xs)[xs[i]] > 0;
    }
  }

  /** The rows of a listing, one per mission. */
  function Rows(s: Store, ms: seq<Mission>): (r: seq<MissionModel>)
    requires forall i :: 0 <= i < |ms| ==> ms[i].chiefId in s.brawlers
    ensures MissionsOf(r) == ms
    ensures forall i :: 0 <= i < |r| ==> r[i] == ModelRow(s, ms[i])
  {
    seq(|ms|, i requires 0 <= i < |ms| => ModelRow(s, ms[i]))
  }

  /** `SELECT <row> FROM missions m INNER JOIN brawlers b ... WHERE p
      ORDER BY k DESC LIMIT $n`; a negative limit is rejected by Postgres. */
  ghost function Listing(s: Store, p: Mission -> bool, k: OrderKey, limit: int): (r: Result<seq<MissionModel>>)
    requires forall m :: p(m) ==> m.chiefId in s.brawlers
    ensures r.Err? <==> limit < 0
    ensures r.Err? ==> r.error == NegativeLimit
    ensures r.Ok? ==> MissionsOf(r.value) == Limit(Query(s, p, k), limit)
    ensures r.Ok? ==> forall i :: 0 <= i < |r.value| ==>
      (r.value[i].mission.chiefId in s.brawlers && r.value[i] == ModelRow(s, r.value[i].mission))
  {
    if limit < 0 then Err(NegativeLimit)
    else
      QueryRowsAccepted(s, p, k, limit);
      Ok(Rows(s, Limit(Query(s, p, k), limit)))
  }
}

=== FILE: mission_management.dfy ===
/** The mission management repository: inserting a mission, and the filtered
    `edit` and `remove` updates. */
module MissionManagement {
  import opened Results
  import opened MissionStatuses
  import opened Entities
  import opened Database

  /** The row after a changeset is applied: `chief_id` is overwritten, each
      `Some` field is set, each `None` field is left alone. */
  function ApplyEdit(m: Mission, e: EditMissionEntity): (r: Mission)
    ensures r.id == m.id && r.deleted == m.deleted
    ensures r.createdAt == m.createdAt && r.updatedAt == m.updatedAt
    ensures r.chiefId == e.chiefId
    ensures e.name.Some? ==> r.name == e.name.value
    ensures e.name.None? ==> r.name == m.name
    ensures e.status.Some? ==> r.status == e.status.value
    ensures e.status.None? ==> r.status == m.status
    ensures e.description.Some? ==> r.description == e.description
    ensures e.description.None? ==> r.description == m.description
    ensures e.maxCrew.Some? ==> r.maxCrew == e.maxCrew.value
    ensures e.maxCrew.None? ==> r.maxCrew == m.maxCrew
    ensures e.deadline.Some? ==> r.deadline == e.deadline
    ensures e.deadline.None? ==> r.deadline == m.deadline
    ensures e.duration.Some? ==> r.duration == e.duration
    ensures e.duration.None? ==> r.duration == m.duration
  {
    m.(chiefId := e.chiefId,
       name := e.name.GetOr(m.name),
       status := e.status.GetOr(m.status),
       description := if e.description.Some? then e.description else m.description,
       maxCrew := e.maxCrew.GetOr(m.maxCrew),
       deadline := if e.deadline.Some? then e.deadline else m.deadline,
       duration := if e.duration.Some? then e.duration else m.duration)
  }

  /** `INSERT INTO missions ... RETURNING id`: a new live row under the next
      sequence value, created and updated at `now`, with no deadline. */
  function Add(s: Store, e: AddMissionEntity, now: int): (r: Step<int>)
    ensures r.result == Ok(s.nextId)
    ensures r.store.nextId == s.nextId + 1 && r.store.crew == s.crew && r.store.brawlers == s.brawlers
    ensures r.store.missions.Keys == s.missions.Keys + {s.nextId}
    ensures forall id :: id in s.missions && id != s.nextId ==> r.store.missions[id] == s.missions[id]
    ensures var m := r.store.missions[s.nextId];
      && m.id == s.nextId && m.chiefId == e.chiefId && m.name == e.name
      && m.description == e.description && m.status == e.status
      && m.maxCrew == e.maxCrew && m.duration == e.duration
      && m.deadline.None? && !m.deleted && m.createdAt == now && m.updatedAt == now
  {
    var row := Mission(s.nextId, e.chiefId, e.name, e.description, e.status, e.maxCrew,
                       e.duration, None, false, now, now);
    Step(s.(missions := s.missions[s.nextId := row], nextId := s.nextId + 1), Ok(s.nextId))
  }

  /** `UPDATE missions SET <changeset> WHERE id = $1 AND deleted_at IS NULL
      AND status = 'Open' RETURNING id`.  Without a matching row Diesel's
      `get_result` fails with NotFound. */
  function Edit(s: Store, missionId: int, e: EditMissionEntity): (r: Step<int>)
    ensures r.result.Ok? <==> Live(s, missionId) && s.missions[missionId].status == Open
    ensures r.result.Ok? ==> r.result.value == missionId
    ensures r.result.Ok? ==> r.store.missions == s.missions[missionId := ApplyEdit(s.missions[missionId], e)]
    ensures r.result.Err? ==> r == Step(s, Err(NotFound))
    ensures r.store.crew == s.crew && r.store.brawlers == s.brawlers && r.store.nextId == s.nextId
    ensures r.store.missions.Keys == s.missions.Keys
    ensures forall id :: id in s.missions && id != missionId ==> r.store.missions[id] == s.missions[id]
  {
    if missionId in s.missions && !s.missions[missionId].deleted
       && Display(s.missions[missionId].status) == Display(Open)
    then
      Step(s.(missions := s.missions[missionId := ApplyEdit(s.missions[missionId], e)]), Ok(missionId))
    else
      Step(s, Err(NotFound))
  }

  /** `UPDATE missions SET deleted_at = now, chief_id = $2 WHERE id = $1 AND
      deleted_at IS NULL AND status = 'Open'`, run with `execute`, so a call
      that matches nothing still succeeds. */
  function Remove(s: Store, missionId: int, chiefId: int): (r: Step<()>)
    ensures r.result == Ok(())
    ensures Live(s, missionId) && s.missions[missionId].status == Open ==>
      r.store.missions == s.missions[missionId := s.missions[missionId].(deleted := true, chiefId := chiefId)]
    ensures !(Live(s, missionId) && s.missions[missionId].status == Open) ==> r.store == s
    ensures r.store.crew == s.crew && r.store.brawlers == s.brawlers && r.store.nextId == s.nextId
    ensures r.store.missions.Keys == s.missions.Keys
    ensures forall id :: id in s.missions && id != missionId ==> r.store.missions[id] == s.missions[id]
  {
    if missionId in s.missions && !s.missions[missionId].deleted
       && Display(s.missions[missionId].status) == Display(Open)
    then
      var m := s.missions[missionId];
      Step(s.(missions := s.missions[missionId := m.(deleted := true, chiefId := chiefId)]), Ok(()))
    else
      Step(s, Ok(()))
  }

  /** A new mission gets an id no row had, is live, and has no crew; the
      store constraints survive the insert. */
  lemma AddIsFresh(s: Store, e: AddMissionEntity, now: int)
    requires Valid(s)
    ensures var r := Add(s, e, now);
      && s.nextId !in s.missions
      && Valid(r.store)
      && Live(r.store, r.result.value)
      && CrewCount(r.store, r.result.value) == 0
  {
    var r := Add(s, e, now);
    assert CrewRows(r.store.crew, s.nextId) == {} by {
      forall p | p in r.store.crew
        ensures p.0 != s.nextId
      {
        assert p.0 in s.missions;
      }
    }
  }

  /** `edit` and `remove` keep the store constraints. */
  lemma WritesKeepValid(s: Store, missionId: int, e: EditMissionEntity, chiefId: int)
    requires Valid(s)
    ensures Valid(Edit(s, missionId, e).store)
    ensures Valid(Remove(s, missionId, chiefId).store)
  {
  }

  /** Whatever changeset is sent, `edit` touches nothing unless the mission is
      live and Open; in particular no status can be written to a mission that
      is InProgress, Completed or Failed. */
  lemma EditOnlyOpen(s: Store, missionId: int, e: EditMissionEntity)
    requires missionId in s.missions && s.missions[missionId].status != Open
    ensures Edit(s, missionId, e) == Step(s, Err(NotFound))
  {
  }
}

=== FILE: mission_model.dfy ===
/** The request bodies for creating and editing a mission and their
    conversion into repository records. */
module MissionModels {
  import opened Results
  import opened MissionStatuses
  import opened Entities
  import opened Database
  import opened MissionManagement

  /** The body of a create request.  The Rust struct of this snapshot has
      only `name` and `description` while the record it converts into also
      needs `max_crew`; the capacity and duration the insert writes are
      carried here. */
  datatype AddMissionModel = AddMissionModel(
    name: string,
    description: Option<string>,
    maxCrew: int,
    duration: Option<int>)

  /** The body of an edit request: only the name and the description. */
  datatype EditMissionModel = EditMissionModel(name: Option<string>, description: Option<string>)

  /** `AddMissionModel::to_entity`: the caller becomes the chief and every
      new mission starts Open. */
  function AddToEntity(m: AddMissionModel, chiefId: int): (e: AddMissionEntity)
    ensures e.chiefId == chiefId && e.status == Open
    ensures e.name == m.name && e.description == m.description
  {
    AddMissionEntity(chiefId, m.name, Default(), m.description, m.maxCrew, m.duration)
  }

  /** `EditMissionModel::to_entity`: the caller is written as chief, the name
      and description are passed on, and no status is ever set. */
  function EditToEntity(m: EditMissionModel, chiefId: int): (e: EditMissionEntity)
    ensures e.chiefId == chiefId && e.status.None?
    ensures e.name == m.name && e.description == m.description
    ensures e.maxCrew.None? && e.deadline.None? && e.duration.None?
  {
    EditMissionEntity(chiefId, m.name, None, m.description, None, None, None)
  }

  /** A mission created from a request is a new live Open mission led by
      the caller, with no crew and no deadline. */
  lemma AddedMissionIsOpen(s: Store, m: AddMissionModel, chiefId: int, now: int)
    requires Valid(s)
    ensures var r := Add(s, AddToEntity(m, chiefId), now);
      && r.result.Ok?
      && Live(r.store, r.result.value)
      && r.store.missions[r.result.value].status == Open
      && r.store.missions[r.result.value].chiefId == chiefId
      && r.store.missions[r.result.value].deadline.None?
      && CrewCount(r.store, r.result.value) == 0
      && Valid(r.store)
  {
    AddIsFresh(s, AddToEntity(m, chiefId), now);
  }

  /** An edit request changes at most the chief, the name and the
      description of an Open mission, and never its status. */
  lemma UserEditKeepsStatus(s: Store, missionId: int, m: EditMissionModel, chiefId: int)
    requires missionId in s.missions
    ensures var after := Edit(s, missionId, EditToEntity(m, chiefId)).store.missions[missionId];
      var before := s.missions[missionId];
      && after.status == before.status
      && after.maxCrew == before.maxCrew && after.deadline == before.deadline && after.duration == before.duration
      && after == before.(chiefId := after.chiefId, name := after.name, description := after.description)
  {
  }
}

=== FILE: mission_operation.dfy ===
/** The mission operation use case: starting a mission (`in_progress`) and
    ending it as Completed or Failed. */
module MissionOperation {
  import opened Results
  import opened MissionStatuses
  import opened Entities
  import opened Database
  import opened MissionViewing
  import opened MissionOperationStore

  /** The crew cap `in_progress` uses when `MAX_CREW_PER_MISSION` is unset. */
  const DefaultCrewCap: nat := 5

  /** The deadline a started mission gets: `duration` minutes after `now`
      (seconds), or none when the mission has no duration. */
  function DeadlineFrom(now: int, duration: Option<int>): (r: Option<int>)
    ensures r.Some? <==> duration.Some?
    ensures r.Some? ==> r.value - now == 60 * duration.value
  {
    match duration
    case None => None
    case Some(minutes) => Some(now + 60 * minutes)
  }

  /** The checks of `in_progress` all pass.  The crew is compared with the
      configured cap, not with the mission's own `max_crew`. */
  predicate StartChecksPass(s: Store, missionId: int, chiefId: int, cap: nat) {
    && Live(s, missionId)
    && s.missions[missionId].status in {Open, Failed}
    && !(s.missions[missionId].status == Failed && s.missions[missionId].deadline.Some?)
    && CrewCount(s, missionId) < cap
    && s.missions[missionId].chiefId == chiefId
  }

  /** `in_progress`: load the mission and its count, refuse Completed, then
      anything but Open or Failed, then a Failed mission that already has a
      deadline, then a crew at the cap, then a caller who is not the chief;
      otherwise set InProgress with the deadline computed from `now`. */
  function StartMission(s: Store, missionId: int, chiefId: int, cap: nat, now: int): (r: Step<int>)
    ensures r.result.Ok? <==> StartChecksPass(s, missionId, chiefId, cap)
    ensures r.result.Ok? ==> r.result.value == missionId
    ensures r.result.Ok? ==> r.store == s.(missions := s.missions[missionId :=
      s.missions[missionId].(status := InProgress, deadline := DeadlineFrom(now, s.missions[missionId].duration))])
    ensures r.result.Err? ==> r.store == s
    ensures !Live(s, missionId) ==> r.result == Err(NotFound)
    ensures Live(s, missionId) && s.missions[missionId].status == Completed ==> r.result == Err(CannotRestartCompleted)
    ensures Live(s, missionId) && s.missions[missionId].status == InProgress ==> r.result == Err(StatusMustBeOpenOrFailed)
    ensures Live(s, missionId) && s.missions[missionId].status == Failed && s.missions[missionId].deadline.Some?
      ==> r.result == Err(FailedMissionEnded)
    ensures Live(s, missionId) && s.missions[missionId].status in {Open, Failed}
      && !(s.missions[missionId].status == Failed && s.missions[missionId].deadline.Some?)
      && CrewCount(s, missionId) >= cap
      ==> r.result == Err(CrewFull)
    ensures Live(s, missionId) && s.missions[missionId].status in {Open, Failed}
      && !(s.missions[missionId].status == Failed && s.missions[missionId].deadline.Some?)
      && CrewCount(s, missionId) < cap && s.missions[missionId].chiefId != chiefId
      ==> r == Step(s, Err(OnlyChiefCanStart))
  {
    match ViewDetailIn(s, missionId)
    case Err(e) => Step(s, Err(e))
    case Ok(detail) =>
      var mission := detail.mission;
      var crewCount := CrewCount(s, missionId);
      if Display(mission.status) == Display(Completed) then
        Step(s, Err(CannotRestartCompleted))
      else if !(Display(mission.status) == Display(Open) || Display(mission.status) == Display(Failed)) then
        Step(s, Err(StatusMustBeOpenOrFailed))
      else if Display(mission.status) == Display(Failed) && mission.deadline.Some? then
        Step(s, Err(FailedMissionEnded))
      else if crewCount >= cap then
        Step(s, Err(CrewFull))
      else if mission.chiefId != chiefId then
        Step(s, Err(OnlyChiefCanStart))
      else
        ToProgress(s, missionId, chiefId, DeadlineFrom(now, mission.duration))
  }

  /** `to_completed`: only an InProgress mission, only by its chief. */
  function ToCompletedOp(s: Store, missionId: int, chiefId: int): (r: Step<int>)
    ensures r.result.Ok? <==> Live(s, missionId) && s.missions[missionId].status == InProgress
                              && s.missions[missionId].chiefId == chiefId
    ensures r.result.Ok? ==> r.result.value == missionId
    ensures r.result.Ok? ==> r.store == s.(missions := s.missions[missionId := s.missions[missionId].(status := Completed)])
    ensures r.result.Err? ==> r.store == s
    ensures Live(s, missionId) && s.missions[missionId].status != InProgress ==> r.result == Err(MustBeInProgressToComplete)
    ensures Live(s, missionId) && s.missions[missionId].status == InProgress && s.missions[missionId].chiefId != chiefId
      ==> r.result == Err(OnlyChiefCanComplete)
    ensures !Live(s, missionId) ==> r.result == Err(NotFound)
  {
    match ViewDetailIn(s, missionId)
    case Err(e) => Step(s, Err(e))
    case Ok(detail) =>
      var mission := detail.mission;
      if Display(mission.status) != Display(InProgress) then
        Step(s, Err(MustBeInProgressToComplete))
      else if mission.chiefId != chiefId then
        Step(s, Err(OnlyChiefCanComplete))
      else
        ToCompleted(s, missionId, chiefId)
  }

  /** `to_failed`: only an InProgress mission, only by its chief. */
  function ToFailedOp(s: Store, missionId: int, chiefId: int): (r: Step<int>)
    ensures r.result.Ok? <==> Live(s, missionId) && s.missions[missionId].status == InProgress
                              && s.missions[missionId].chiefId == chiefId
    ensures r.result.Ok? ==> r.result.value == missionId
    ensures r.result.Ok? ==> r.store == s.(missions := s.missions[missionId := s.missions[missionId].(status := Failed)])
    ensures r.result.Err? ==> r.store == s
    ensures Live(s, missionId) && s.missions[missionId].status != InProgress ==> r.result == Err(MustBeInProgressToFail)
    ensures Live(s, missionId) && s.missions[missionId].status == InProgress && s.missions[missionId].chiefId != chiefId
      ==> r.result == Err(OnlyChiefCanFail)
    ensures !Live(s, missionId) ==> r.result == Err(NotFound)
  {
    match ViewDetailIn(s, missionId)
    case Err(e) => Step(s, Err(e))
    case Ok(detail) =>
      var mission := detail.mission;
      if Display(mission.status) != Display(InProgress) then
        Step(s, Err(MustBeInProgressToFail))
      else if mission.chiefId != chiefId then
        Step(s, Err(OnlyChiefCanFail))
      else
        ToFailed(s, missionId, chiefId)
  }

  /** Whether a mission may start does not depend on its own `max_crew`:
      changing it changes no answer of `in_progress`. */
  lemma StartIgnoresMaxCrew(s: Store, missionId: int, chiefId: int, cap: nat, now: int, maxCrew: int)
    requires missionId in s.missions
    ensures var t := s.(missions := s.missions[missionId := s.missions[missionId].(maxCrew := maxCrew)]);
      StartMission(t, missionId, chiefId, cap, now).result == StartMission(s, missionId, chiefId, cap, now).result
  {
    var t := s.(missions := s.missions[missionId := s.missions[missionId].(maxCrew := maxCrew)]);
    assert CrewCount(t, missionId) == CrewCount(s, missionId);
  }

  /** A caller who is not the chief never changes the mission's lifecycle. */
  lemma OnlyChiefMovesLifecycle(s: Store, missionId: int, caller: int, cap: nat, now: int)
    requires missionId in s.missions && s.missions[missionId].chiefId != caller
    ensures StartMission(s, missionId, caller, cap, now).store == s && StartMission(s, missionId, caller, cap, now).result.Err?
    ensures ToCompletedOp(s, missionId, caller) == Step(s, ToCompletedOp(s, missionId, caller).result)
    ensures ToCompletedOp(s, missionId, caller).result.Err?
    ensures ToFailedOp(s, missionId, caller).store == s && ToFailedOp(s, missionId, caller).result.Err?
  {
  }

  /** A started mission can be ended exactly once: completing or failing it
      succeeds, and afterwards neither end can be applied again. */
  lemma StartThenEnd(s: Store, missionId: int, chiefId: int, cap: nat, now: int)
    requires StartChecksPass(s, missionId, chiefId, cap)
    ensures var started := StartMission(s, missionId, chiefId, cap, now).store;
      && ToCompletedOp(started, missionId, chiefId).result == Ok(missionId)
      && ToFailedOp(started, missionId, chiefId).result == Ok(missionId)
      && ToCompletedOp(ToCompletedOp(started, missionId, chiefId).store, missionId, chiefId).result == Err(MustBeInProgressToComplete)
      && ToFailedOp(ToFailedOp(started, missionId, chiefId).store, missionId, chiefId).result == Err(MustBeInProgressToFail)
  {
  }

  /** A mission failed at its end has a deadline when it had a duration, so
      it can never be restarted; one without a duration can. */
  lemma FailedWithDeadlineStaysFailed(s: Store, missionId: int, chiefId: int, cap: nat, now: int)
    requires StartChecksPass(s, missionId, chiefId, cap) && s.missions[missionId].duration.Some?
    ensures var started := StartMission(s, missionId, chiefId, cap, now).store;
      var failed := ToFailedOp(started, missionId, chiefId).store;
      StartMission(failed, missionId, chiefId, cap, now).result == Err(FailedMissionEnded)
  {
  }
}

=== FILE: mission_operation_store.dfy ===
/** The mission operation repository behind `in_progress`, `to_completed` and
    `to_failed`.  Its Postgres implementation is not part of this model; each
    call is modelled as an update of the live row with that id and chief,
    returning the id, or NotFound when no row matches. */
module MissionOperationStore {
  import opened Results
  import opened MissionStatuses
  import opened Entities
  import opened Database

  function UpdateRow(s: Store, missionId: int, chiefId: int, row: Mission -> Mission): Step<int> {
    if Live(s, missionId) && s.missions[missionId].chiefId == chiefId
    then Step(s.(missions := s.missions[missionId := row(s.missions[missionId])]), Ok(missionId))
    else Step(s, Err(NotFound))
  }

  /** `to_progress`: status InProgress and the computed deadline. */
  function ToProgress(s: Store, missionId: int, chiefId: int, deadline: Option<int>): Step<int> {
    UpdateRow(s, missionId, chiefId, (m: Mission) => m.(status := InProgress, deadline := deadline))
  }

  function ToCompleted(s: Store, missionId: int, chiefId: int): Step<int> {
    UpdateRow(s, missionId, chiefId, (m: Mission) => m.(status := Completed))
  }

  function ToFailed(s: Store, missionId: int, chiefId: int): Step<int> {
    UpdateRow(s, missionId, chiefId, (m: Mission) => m.(status := Failed))
  }
}

=== FILE: mission_statuses.dfy ===
/** The mission status enum, its default and its `Display` rendering, which is
    the text stored in the missions table's status column. */
module MissionStatuses {
  import opened Results

  datatype Status = Open | InProgress | Completed | Failed

  /** The `#[default]` variant: a status nobody chose is Open. */
  function Default(): (st: Status)
    ensures Display(st) == "Open"
  {
    Open
  }

  /** `impl Display for MissionStatuses`.  Each variant is rendered as its own
      name, so serde's name-based parsing reads the rendering back. */
  function Display(st: Status): (name: string)
    ensures FromName(name) == Some(st)
  {
    match st
    case Open => "Open"
    case InProgress => "InProgress"
    case Completed => "Completed"
    case Failed => "Failed"
  }

  /** serde's derived deserialisation of a unit variant from its name (the
      `status` field of a mission filter arrives this way). */
  function FromName(name: string): Option<Status> {
    if name == "Open" then Some(Open)
    else if name == "InProgress" then Some(InProgress)
    else if name == "Completed" then Some(Completed)
    else if name == "Failed" then Some(Failed)
    else None
  }

  /** Comparing rendered statuses, as the use cases and SQL do, is the same as
      comparing the variants. */
  lemma DisplayInjective(a: Status, b: Status)
    ensures Display(a) == Display(b) <==> a == b
  {
  }

  /** Exactly four status texts can ever be written. */
  lemma DisplayRange(name: string)
    ensures (exists st :: Display(st) == name) <==> name in {"Open", "InProgress", "Completed", "Failed"}
  {
    if name == "Open" { assert Display(Open) == name; }
    if name == "InProgress" { assert Display(InProgress) == name; }
    if name == "Completed" { assert Display(Completed) == name; }
    if name == "Failed" { assert Display(Failed) == name; }
  }

  /** Parsing succeeds exactly on the rendered names. */
  lemma FromNameInverse(name: string, st: Status)
    ensures FromName(name) == Some(st) <==> Display(st) == name
  {
  }
}

=== FILE: mission_viewing.dfy ===
/** The mission viewing use case: a mission's detail and the filtered list,
    each with crew counts attached.  Both are written over the repository's
    answers, so that a failing count can be expressed; `ViewDetailIn` and
    `StoreCounts` feed them from the in-memory store. */
module MissionViewing {
  import opened Results
  import opened Entities
  import opened Database
  import opened Queries
  import opened MissionViewingRepo

  /** `MissionEntity::to_model`, which is not part of this model beyond the
      fields it is given: the row and the crew count, with no display name. */
  function ToModel(m: Mission, crewCount: nat): MissionModel {
    MissionModel(m, None, crewCount)
  }

  /** `view_detail`: count the crew, then load the row; either failure is the
      result. */
  function ViewDetail(count: Result<nat>, one: Result<Mission>): (r: Result<MissionModel>)
    ensures r.Ok? <==> count.Ok? && one.Ok?
    ensures r.Ok? ==> r.value.mission == one.value && r.value.crewCount == count.value
    ensures r.Err? ==> r.error == (if count.Err? then count.error else one.error)
  {
    var crewCount :- count;
    var model :- one;
    Ok(ToModel(model, crewCount))
  }

  /** The loop body of `get`, over the remaining rows: a failed count becomes 0. */
  function AttachCounts(ms: seq<Mission>, count: int -> Result<nat>): (r: seq<MissionModel>)
    ensures |r| == |ms|
    ensures forall i :: 0 <= i < |ms| ==> r[i].mission == ms[i] && r[i].crewCount == count(ms[i].id).GetOr(0)
  {
    if |ms| == 0 then []
    else [ToModel(ms[0], count(ms[0].id).GetOr(0))] + AttachCounts(ms[1..], count)
  }

  /** `get`: one model per listed mission, in the listed order; it fails only
      when the listing does. */
  function Get(all: Result<seq<Mission>>, count: int -> Result<nat>): (r: Result<seq<MissionModel>>)
    ensures r.Ok? <==> all.Ok?
    ensures r.Err? ==> r.error == all.error
    ensures r.Ok? ==> |r.value| == |all.value|
    ensures r.Ok? ==> forall i :: 0 <= i < |r.value| ==>
      r.value[i].mission == all.value[i] && r.value[i].crewCount == (if count(all.value[i].id).Ok? then count(all.value[i].id).value else 0)
  {
    var models :- all;
    Ok(AttachCounts(models, count))
  }

  /** The detail read on the in-memory store.  The crew and mission use
      cases call a repository `view_detail` that the repository trait
      declares but its Postgres implementation does not define; it is
      modelled as this same count-then-load read. */
  function ViewDetailIn(s: Store, missionId: int): (r: Result<MissionModel>)
    ensures r.Ok? <==> Live(s, missionId)
    ensures r.Ok? ==> r.value.mission == s.missions[missionId] && r.value.crewCount == CrewCount(s, missionId)
    ensures r.Err? ==> r.error == NotFound
  {
    ViewDetail(CrewCounting(s, missionId), GetOne(s, missionId))
  }

  /** The crew counts `get` attaches on the in-memory store. */
  function StoreCounts(s: Store): int -> Result<nat> {
    id => CrewCounting(s, id)
  }

  /** On the in-memory store `get` lists exactly `get_all`'s missions, in
      the same order, each with its live crew count. */
  lemma GetOverStore(s: Store, filter: MissionFilter)
    ensures var r := Get(GetAll(s, filter), StoreCounts(s));
      && r.Ok?
      && |r.value| == |GetAll(s, filter).value|
      && (forall i :: 0 <= i < |r.value| ==> r.value[i].mission == GetAll(s, filter).value[i])
      && (forall i :: 0 <= i < |r.value| ==> r.value[i].crewCount == CrewCount(s, r.value[i].mission.id))
  {
    var all := GetAll(s, filter);
    var r := Get(all, StoreCounts(s));
    forall i | 0 <= i < |r.value|
      ensures r.value[i].crewCount == CrewCount(s, r.value[i].mission.id)
    {
      assert StoreCounts(s)(all.value[i].id) == Ok(CrewCount(s, all.value[i].id));
    }
  }
}

=== FILE: mission_viewing_repo.dfy ===
/** The mission viewing repository: crew counting, single-mission lookup,
    the filtered mission list and the crew roster. */
module MissionViewingRepo {
  import opened Results
  import opened MissionStatuses
  import opened Entities
  import opened Database
  import opened Queries
  import opened Text

  /** The list filter.  Only `name` and `status` are consulted by `get_all`;
      the other four fields are carried but ignored. */
  datatype MissionFilter = MissionFilter(
    name: Option<string>,
    status: Option<Status>,
    excludeOwnedBy: Option<int>,
    excludeJoinedBy: Option<int>,
    ownedBy: Option<int>,
    joinedBy: Option<int>)

  /** `crew_counting`: the number of memberships of the mission, which is
      0 exactly when nobody is on its crew.  The query never fails on the
      in-memory store. */
  function CrewCounting(s: Store, missionId: int): (r: Result<nat>)
    ensures r.Ok?
    ensures r.value == |set p | p in s.crew && p.0 == missionId|
    ensures r.value == 0 <==> forall b :: (missionId, b) !in s.crew
  {
    var rows := CrewRows(s.crew, missionId);
    assert rows != {} ==> exists b :: (missionId, b) in s.crew by {
      if rows != {} {
        var p :| p in rows;
        var b := p.1;
        assert p in s.crew && p == (missionId, b);
        assert (missionId, b) in s.crew;
      }
    }
    assert rows == {} ==> forall b :: (missionId, b) !in s.crew by {
      if rows == {} {
        forall b
          ensures (missionId, b) !in s.crew
        {
          assert (missionId, b) !in rows;
        }
      }
    }
    Ok(CrewCount(s, missionId))
  }

  /** `get_one`: `WHERE id = $1 AND deleted_at IS NULL`, then `first`. */
  function GetOne(s: Store, missionId: int): (r: Result<Mission>)
    ensures r.Ok? <==> Live(s, missionId)
    ensures r.Ok? ==> r.value == s.missions[missionId]
    ensures r.Err? ==> r.error == NotFound
  {
    if missionId in s.missions && !s.missions[missionId].deleted
    then Ok(s.missions[missionId])
    else Err(NotFound)
  }

  /** The WHERE clause `get_all` builds from a filter. */
  predicate Accepts(name: Option<string>, status: Option<Status>, m: Mission) {
    && !m.deleted
    && (status.None? || Display(m.status) == Display(status.value))
    && (name.None? || ContainsIgnoringCase(m.name, name.value))
  }

  ghost function Matching(s: Store, name: Option<string>, status: Option<Status>): seq<Mission> {
    Query(s, (m: Mission) => Accepts(name, status, m), CreatedAt)
  }

  /** The filter as the use cases mean it: live, with the requested status
      and a name containing the requested text. */
  predicate Selects(filter: MissionFilter, m: Mission) {
    && !m.deleted
    && (filter.status.Some? ==> m.status == filter.status.value)
    && (filter.name.Some? ==> ContainsIgnoringCase(m.name, filter.name.value))
  }

  /** `get_all`: the live missions whose status equals the filter's (when
      given) and whose name contains the filter's text ignoring case (when
      given), each once, newest first.  The SQL compares rendered status
      text; the contract states it with the variants. */
  ghost function GetAll(s: Store, filter: MissionFilter): (r: Result<seq<Mission>>)
    ensures r.Ok?
    ensures SortedDesc(r.value, CreatedAt)
    ensures forall m :: m in r.value <==> m in MissionRows(s) && Selects(filter, m)
    ensures forall m :: multiset(r.value)[m] <= 1
  {
    var r := Matching(s, filter.name, filter.status);
    forall m
      ensures m in r <==> m in MissionRows(s) && Selects(filter, m)
    {
      assert m in r <==> multiset(r)[m] > 0;
      if filter.status.Some? {
        DisplayInjective(m.status, filter.status.value);
      }
    }
    Ok(r)
  }

  /** In a valid store, a single-mission lookup and the unfiltered list agree:
      the lookup finds a row exactly when the list holds it. */
  lemma GetOneAgreesWithGetAll(s: Store, m: Mission)
    requires Valid(s)
    ensures GetOne(s, m.id) == Ok(m) <==> m in GetAll(s, MissionFilter(None, None, None, None, None, None)).value
  {
  }

  /** The owner and membership fields of a filter make no difference. */
  lemma GetAllIgnoresOwnership(s: Store, f: MissionFilter, g: MissionFilter)
    requires f.name == g.name && f.status == g.status
    ensures GetAll(s, f) == GetAll(s, g)
  {
  }

  /** One roster line for brawler `b`: the mission count with status text
      `successStatus`, and the count of all its memberships. */
  function RosterLine(s: Store, b: int, successStatus: string): BrawlerModel
    requires b in s.brawlers
  {
    BrawlerModel(
      s.brawlers[b].displayName,
      s.brawlers[b].avatarUrl.GetOr(""),
      |StatusMemberships(s, b, successStatus)|,
      |set p | p in s.crew && p.1 == b|)
  }

  /** Brawler `b`'s memberships in missions whose status renders as `text`. */
  function StatusMemberships(s: Store, b: int, text: string): set<(int, int)> {
    set p | p in s.crew && p.1 == b && p.0 in s.missions && Display(s.missions[p.0].status) == text
  }

  /** Brawler `b`'s memberships in Completed missions. */
  function CompletedMemberships(s: Store, b: int): set<(int, int)> {
    set p | p in s.crew && p.1 == b && p.0 in s.missions && s.missions[p.0].status == Completed
  }

  /** The memberships of a mission whose brawler exists (`INNER JOIN brawlers`). */
  function RosterRows(s: Store, missionId: int): set<(int, int)> {
    set p | p in s.crew && p.0 == missionId && p.1 in s.brawlers
  }

  /** The order in which the roster query meets the mission's memberships:
      each one exactly once. */
  ghost function RosterOrder(s: Store, missionId: int): (rows: seq<(int, int)>)
    ensures forall p :: p in rows <==> p in RosterRows(s, missionId)
    ensures forall i, j :: 0 <= i < j < |rows| ==> rows[i] != rows[j]
    ensures |rows| == |RosterRows(s, missionId)|
  {
    var rows := SetToSeq(RosterRows(s, missionId));
    forall p
      ensures p in rows <==> p in RosterRows(s, missionId)
    {
      assert p in rows <==> multiset(rows)[p] > 0;
    }
    forall i, j | 0 <= i < j < |rows|
      ensures rows[i] != rows[j]
    {
      NoRepeats(rows, i, j);
    }
    rows
  }

  /** The roster lines, one for each membership in `RosterOrder`, built from
      that membership's brawler. */
  ghost function Roster(s: Store, missionId: int, successStatus: string): (r: seq<BrawlerModel>)
    ensures |r| == |RosterOrder(s, missionId)|
    ensures forall i :: 0 <= i < |r| ==>
      RosterOrder(s, missionId)[i].1 in s.brawlers
      && r[i] == RosterLine(s, RosterOrder(s, missionId)[i].1, successStatus)
  {
    var rows := RosterOrder(s, missionId);
    assert forall i :: 0 <= i < |rows| ==> rows[i] in RosterRows(s, missionId);
    seq(|rows|, i requires 0 <= i < |rows| => RosterLine(s, rows[i].1, successStatus))
  }

  /** `get_mission_crew`: one line per membership of the mission, in the
      query's order.  Its success count compares the status with 'SUCCESS'. */
  ghost function GetMissionCrew(s: Store, missionId: int): (r: Result<seq<BrawlerModel>>)
    ensures r.Ok?
    ensures |r.value| == |RosterOrder(s, missionId)| == |RosterRows(s, missionId)|
    ensures forall i :: 0 <= i < |r.value| ==>
      RosterOrder(s, missionId)[i].1 in s.brawlers
      && r.value[i] == RosterLine(s, RosterOrder(s, missionId)[i].1, "SUCCESS")
  {
    Ok(Roster(s, missionId, "SUCCESS"))
  }

  /** As written, the roster's success count compares against 'SUCCESS',
      a text no status renders to, so it is 0 on every line. */
  lemma SuccessCountAlwaysZero(s: Store, missionId: int)
    ensures forall line :: line in GetMissionCrew(s, missionId).value ==> line.missionSuccessCount == 0
  {
    var r := GetMissionCrew(s, missionId).value;
    forall line | line in r
      ensures line.missionSuccessCount == 0
    {
      var i :| 0 <= i < |r| && r[i] == line;
      NoSuccessText(s, RosterOrder(s, missionId)[i].1);
    }
  }

  /** No membership is in a mission whose status renders as 'SUCCESS'. */
  lemma NoSuccessText(s: Store, b: int)
    ensures StatusMemberships(s, b, "SUCCESS") == {}
  {
    assert FromName("SUCCESS") == None;
  }

  /** The rendered status matches `Completed` exactly for Completed missions. */
  lemma CompletedText(s: Store, b: int)
    ensures StatusMemberships(s, b, Display(Completed)) == CompletedMemberships(s, b)
  {
    forall q | q in s.crew && q.0 in s.missions
      ensures Display(s.missions[q.0].status) == Display(Completed) <==> s.missions[q.0].status == Completed
    {
      DisplayInjective(s.missions[q.0].status, Completed);
    }
  }

  /** The roster with the success count the query evidently meant: memberships
      in Completed missions. */
  ghost function GetMissionCrewCompleted(s: Store, missionId: int): (r: Result<seq<BrawlerModel>>)
    ensures r.Ok?
    ensures |r.value| == |RosterOrder(s, missionId)| == |RosterRows(s, missionId)|
    ensures forall i :: 0 <= i < |r.value| ==>
      RosterOrder(s, missionId)[i].1 in s.brawlers
      && r.value[i] == RosterLine(s, RosterOrder(s, missionId)[i].1, Display(Completed))
      && r.value[i].missionSuccessCount == |CompletedMemberships(s, RosterOrder(s, missionId)[i].1)|
  {
    var r := Roster(s, missionId, Display(Completed));
    forall i | 0 <= i < |r|
      ensures r[i].missionSuccessCount == |CompletedMemberships(s, RosterOrder(s, missionId)[i].1)|
    {
      CompletedText(s, RosterOrder(s, missionId)[i].1);
    }
    Ok(r)
  }

  /** With every member an existing brawler, the roster has exactly as many
      lines as the crew count. */
  lemma RosterMatchesCount(s: Store, missionId: int)
    requires Valid(s)
    ensures |GetMissionCrew(s, missionId).value| == CrewCount(s, missionId)
    ensures CrewCounting(s, missionId) == Ok(|set p | p in s.crew && p.0 == missionId|)
  {
    assert RosterRows(s, missionId) == CrewRows(s.crew, missionId);
  }
}

=== FILE: queries.dfy ===
/** The shape shared by the read queries: keep the rows a WHERE clause
    accepts, then `ORDER BY <timestamp> DESC`, optionally with a `LIMIT`. */
module Queries {
  import opened Entities
  import opened Database

  datatype OrderKey = CreatedAt | UpdatedAt

  function KeyOf(m: Mission, k: OrderKey): int {
    match k
    case CreatedAt => m.createdAt
    case UpdatedAt => m.updatedAt
  }

  /** Ordered by the key, newest first. */
  predicate SortedDesc(ms: seq<Mission>, k: OrderKey) {
    forall i, j :: 0 <= i < j < |ms| ==> KeyOf(ms[i], k) >= KeyOf(ms[j], k)
  }

  /** Places `m` into a newest-first sequence, after the rows with an equal key. */
  function Insert(m: Mission, ms: seq<Mission>, k: OrderKey): seq<Mission> {
    if |ms| == 0 || KeyOf(ms[0], k) < KeyOf(m, k) then [m] + ms
    else [ms[0]] + Insert(m, ms[1..], k)
  }

  /** The insert adds exactly `m`. */
  lemma {:induction false} InsertAdds(m: Mission, ms: seq<Mission>, k: OrderKey)
    ensures multiset(Insert(m, ms, k)) == multiset(ms) + multiset{m}
  {
    if |ms| == 0 || KeyOf(ms[0], k) < KeyOf(m, k) {
    } else {
      InsertAdds(m, ms[1..], k);
      assert ms == [ms[0]] + ms[1..];
    }
  }

  /** No key above `bound` appears when none went in. */
  lemma {:induction false} InsertBounded(m: Mission, ms: seq<Mission>, k: OrderKey, bound: int)
    requires KeyOf(m, k) <= bound
    requires forall i :: 0 <= i < |ms| ==> KeyOf(ms[i], k) <= bound
    ensures forall i :: 0 <= i < |Insert(m, ms, k)| ==> KeyOf(Insert(m, ms, k)[i], k) <= bound
  {
    if |ms| > 0 && KeyOf(ms[0], k) >= KeyOf(m, k) {
      InsertBounded(m, ms[1..], k, bound);
    }
  }

  /** The insert keeps the sequence newest first. */
  lemma {:induction false} InsertSorted(m: Mission, ms: seq<Mission>, k: OrderKey)
    requires SortedDesc(ms, k)
    ensures SortedDesc(Insert(m, ms, k), k)
  {
    if |ms| == 0 || KeyOf(ms[0], k) < KeyOf(m, k) {
    } else {
      var rest := Insert(m, ms[1..], k);
      InsertSorted(m, ms[1..], k);
      InsertBounded(m, ms[1..], k, KeyOf(ms[0], k));
      var r := [ms[0]] + rest;
      forall i, j | 0 <= i < j < |r|
        ensures KeyOf(r[i], k) >= KeyOf(r[j], k)
      {
        assert r[j] == rest[j - 1];
        if i > 0 {
          assert r[i] == rest[i - 1];
        }
      }
    }
  }

  /** Newest-first sort; the database is free to order equal keys either way,
      and this picks one such order. */
  function Sort(ms: seq<Mission>, k: OrderKey): (r: seq<Mission>)
    ensures SortedDesc(r, k)
    ensures multiset(r) == multiset(ms)
  {
    if |ms| == 0 then []
    else
      assert ms == [ms[0]] + ms[1..];
      InsertAdds(ms[0], Sort(ms[1..], k), k);
      InsertSorted(ms[0], Sort(ms[1..], k), k);
      Insert(ms[0], Sort(ms[1..], k), k)
  }

  /** The rows a WHERE clause accepts, in their original order. */
  function Filter(ms: seq<Mission>, p: Mission -> bool): (r: seq<Mission>)
    ensures forall m :: multiset(r)[m] == if p(m) then multiset(ms)[m] else 0
  {
    if |ms| == 0 then []
    else
      assert ms == [ms[0]] + ms[1..];
      (if p(ms[0]) then [ms[0]] else []) + Filter(ms[1..], p)
  }

  /** The elements of a finite set, each exactly once, in some order. */
  ghost function SetToSeq<T(!new)>(s: set<T>): (r: seq<T>)
    ensures forall x :: multiset(r)[x] == if x in s then 1 else 0
    ensures |r| == |s|
    decreases |s|
  {
    if s == {} then []
    else
      var x :| x in s;
      [x] + SetToSeq(s - {x})
  }

  /** A sequence in which nothing occurs twice has no repeated position. */
  lemma NoRepeats<T>(xs: seq<T>, i: int, j: int)
    requires forall x :: multiset(xs)[x] <= 1
    requires 0 <= i < j < |xs|
    ensures xs[i] != xs[j]
  {
    assert xs == xs[..j] + xs[j..];
    assert xs[i] == xs[..j][i];
    assert xs[j] == xs[j..][0];
    assert multiset(xs)[xs[i]] == multiset(xs[..j])[xs[i]] + multiset(xs[j..])[xs[i]];
  }

  /** `SELECT ... FROM missions WHERE p ORDER BY k DESC`: each row of the
      table that `p` accepts, exactly once, newest first. */
  ghost function Query(s: Store, p: Mission -> bool, k: OrderKey): (r: seq<Mission>)
    ensures SortedDesc(r, k)
    ensures forall m :: multiset(r)[m] == if m in MissionRows(s) && p(m) then 1 else 0
  {
    Sort(Filter(SetToSeq(MissionRows(s)), p), k)
  }

  /** `LIMIT n` with a non-negative `n`. */
  function Limit<T>(xs: seq<T>, n: int): (r: seq<T>)
    requires n >= 0
    ensures r <= xs
    ensures |r| == if |xs| <= n then |xs| else n
  {
    if |xs| <= n then xs else xs[..n]
  }

  /** A prefix of a newest-first sequence is newest-first. */
  lemma SortedPrefix(ms: seq<Mission>, r: seq<Mission>, k: OrderKey)
    requires SortedDesc(ms, k) && r <= ms
    ensures SortedDesc(r, k)
  {
    forall i, j | 0 <= i < j < |r|
      ensures KeyOf(r[i], k) >= KeyOf(r[j], k)
    {
      assert r[i] == ms[i] && r[j] == ms[j];
    }
  }
}

=== FILE: results.dfy ===
/** Optional values, the server's error kinds and the Result type that every
    repository call and use case returns. */
module Results {

  datatype Option<+T> = None | Some(value: T) {

    /** The wrapped value, or `default` when there is none. */
    function GetOr(default: T): T {
      match this
      case Some(v) => v
      case None => default
    }
  }

  /** One constructor per distinct error the server can raise.  The comment on
      each names the message (or the database condition) it stands for. */
  datatype Error =
    | NotFound                   // Diesel `NotFound`: a filtered select or `UPDATE ... RETURNING` matched no row
    | AlreadyJoined              // unique violation on crew_memberships (mission_id, brawler_id)
    | ForeignKeyViolation        // a membership naming a mission or brawler that does not exist
    | NegativeLimit              // Postgres rejects `LIMIT` with a negative argument
    | ChiefCannotJoin            // "The chief cannot join in his own mission as a crew member"
    | NotJoinable                // "Mission is not joinable"
    | MissionFull                // "Mission is full"
    | NotLeavable                // "Mission is not leavable"
    | OnlyChiefCanKick           // "Only the chief can kick members"
    | ChiefCannotKickSelf        // "Chief cannot kick themselves"
    | CannotKickInStatus         // "Cannot kick member in current mission status"
    | CannotRestartCompleted     // "Cannot restart a completed mission"
    | StatusMustBeOpenOrFailed   // "Mission status must be Open or Failed"
    | FailedMissionEnded         // "Cannot restart a failed mission that has ended"
    | CrewFull                   // "Mission crew is full"
    | OnlyChiefCanStart          // "Only the mission chief can start the mission"
    | MustBeInProgressToComplete // "Mission must be In Progress to complete it"
    | OnlyChiefCanComplete       // "Only the mission chief can complete the mission"
    | MustBeInProgressToFail     // "Mission must be In Progress to fail it"
    | OnlyChiefCanFail           // "Only the mission chief can fail the mission"

  /** `anyhow::Result`: a value or one of the errors above. */
  datatype Result<+T> = Ok(value: T) | Err(error: Error) {

    predicate IsFailure() {
      Err?
    }

    function PropagateFailure<U>(): Result<U>
      requires Err?
    {
      Err(error)
    }

    function Extract(): T
      requires Ok?
    {
      value
    }

    /** `Result::unwrap_or`. */
    function GetOr(default: T): T {
      match this
      case Ok(v) => v
      case Err(_) => default
    }
  }
}

=== FILE: text.dfy ===
/** String helpers with the semantics of the Rust standard library calls the
    server makes: `str::split`, `str::trim`, `str::strip_prefix`, decimal
    rendering of integers and `str::parse::<i32>`. */
module Text {
  import opened Results

  /** `char::is_whitespace`: the characters with the Unicode White_Space property. */
  predicate IsWhitespace(c: char) {
    || c == ' '
    || ('\t' <= c <= '\r')
    || c == '\U{0085}' || c == '\U{00A0}' || c == '\U{1680}'
    || ('\U{2000}' <= c <= '\U{200A}')
    || c == '\U{2028}' || c == '\U{2029}' || c == '\U{202F}' || c == '\U{205F}' || c == '\U{3000}'
  }

  /** `str::trim_start`. */
  function TrimStart(s: string): (r: string)
    ensures |r| <= |s| && r == s[|s| - |r|..]
    ensures forall k :: 0 <= k < |s| - |r| ==> IsWhitespace(s[k])
    ensures |r| > 0 ==> !IsWhitespace(r[0])
  {
    if |s| > 0 && IsWhitespace(s[0]) then TrimStart(s[1..]) else s
  }

  /** `str::trim_end`. */
  function TrimEnd(s: string): (r: string)
    ensures |r| <= |s| && r == s[..|r|]
    ensures forall k :: |r| <= k < |s| ==> IsWhitespace(s[k])
    ensures |r| > 0 ==> !IsWhitespace(r[|r| - 1])
  {
    if |s| > 0 && IsWhitespace(s[|s| - 1]) then TrimEnd(s[..|s| - 1]) else s
  }

  /** `str::trim`: the longest slice of `s` that neither starts nor ends with
      whitespace, everything cut off being whitespace. */
  function Trim(s: string): (r: string)
    ensures exists i :: Surrounded(s, r, i)
    ensures |r| > 0 ==> !IsWhitespace(r[0]) && !IsWhitespace(r[|r| - 1])
  {
    var t := TrimStart(s);
    var r := TrimEnd(t);
    TrimSlice(s, t, r);
    r
  }

  /** `r` occurs in `s` at `i` with only whitespace before and after it. */
  predicate Surrounded(s: string, r: string, i: int) {
    && OccursAt(s, r, i)
    && (forall k :: 0 <= k < i ==> IsWhitespace(s[k]))
    && (forall k :: i + |r| <= k < |s| ==> IsWhitespace(s[k]))
  }

  /** Cutting whitespace off the front of `s` to get `t`, then off the back
      of `t` to get `r`, leaves `r` surrounded by whitespace in `s`. */
  lemma TrimSlice(s: string, t: string, r: string)
    requires |t| <= |s| && t == s[|s| - |t|..]
    requires forall k :: 0 <= k < |s| - |t| ==> IsWhitespace(s[k])
    requires |r| <= |t| && r == t[..|r|]
    requires forall k :: |r| <= k < |t| ==> IsWhitespace(t[k])
    ensures Surrounded(s, r, |s| - |t|)
  {
    var i := |s| - |t|;
    assert t == s[i..] && r == t[..|r|];
    assert s[i..i + |r|] == r;
    forall k | i + |r| <= k < |s|
      ensures IsWhitespace(s[k])
    {
      assert s[k] == t[k - i];
    }
  }

  /** `pat` occurs in `s` starting at index `j`. */
  predicate OccursAt(s: string, pat: string, j: int) {
    0 <= j && j + |pat| <= |s| && s[j..j + |pat|] == pat
  }

  /** `pat` occurs somewhere in `s`. */
  predicate Contains(s: string, pat: string) {
    exists j | 0 <= j <= |s| - |pat| :: OccursAt(s, pat, j)
  }

  /** The first index at or after `from` where `pat` occurs. */
  function IndexFrom(s: string, pat: string, from: nat): (r: Option<nat>)
    ensures r.Some? ==> from <= r.value && OccursAt(s, pat, r.value)
    ensures r.Some? ==> forall j :: from <= j < r.value ==> !OccursAt(s, pat, j)
    ensures r.None? ==> forall j :: from <= j ==> !OccursAt(s, pat, j)
    decreases |s| - from
  {
    if from + |pat| > |s| then None
    else if s[from..from + |pat|] == pat then Some(from)
    else IndexFrom(s, pat, from + 1)
  }

  /** `str::find`: the first occurrence of `pat` in `s`. */
  function IndexOf(s: string, pat: string): (r: Option<nat>)
    ensures r.Some? <==> Contains(s, pat)
    ensures r.Some? ==> OccursAt(s, pat, r.value)
    ensures r.Some? ==> forall j :: 0 <= j < r.value ==> !OccursAt(s, pat, j)
  {
    IndexFrom(s, pat, 0)
  }

  /** The pieces of `xs` separated by `sep`; the inverse of `Split`. */
  function Join(xs: seq<string>, sep: string): string {
    if |xs| == 0 then ""
    else if |xs| == 1 then xs[0]
    else xs[0] + sep + Join(xs[1..], sep)
  }

  /** `str::split` with a non-empty string pattern: the pieces between
      non-overlapping occurrences of `sep`, scanning left to right. */
  function Split(s: string, sep: string): (r: seq<string>)
    requires |sep| > 0
    ensures |r| >= 1
    ensures Join(r, sep) == s
    ensures forall k :: 0 <= k < |r| ==> !Contains(r[k], sep)
    decreases |s|
  {
    match IndexOf(s, sep)
    case None => [s]
    case Some(i) =>
      var head := s[..i];
      var rest := Split(s[i + |sep|..], sep);
      assert !Contains(head, sep) by {
        forall j | 0 <= j <= |head| - |sep|
          ensures !OccursAt(head, sep, j)
        {
          assert head[j..j + |sep|] == s[j..j + |sep|];
          assert !OccursAt(s, sep, j);
        }
      }
      assert s == head + sep + s[i + |sep|..];
      assert ([head] + rest)[1..] == rest;
      [head] + rest
  }

  /** `str::strip_prefix`. */
  function StripPrefix(s: string, prefix: string): (r: Option<string>)
    ensures r.Some? <==> prefix <= s
    ensures r.Some? ==> prefix + r.value == s
  {
    if prefix <= s then Some(s[|prefix|..]) else None
  }

  /** ASCII lower-casing, the case folding the name filter relies on. */
  function LowerChar(c: char): char {
    if 'A' <= c <= 'Z' then (c as int + 32) as char else c
  }

  function Lower(s: string): (r: string)
    ensures |r| == |s|
    ensures forall k :: 0 <= k < |s| ==> r[k] == LowerChar(s[k])
  {
    seq(|s|, k requires 0 <= k < |s| => LowerChar(s[k]))
  }

  /** `ILIKE '%pat%'` on a column value, simplified to a case-insensitive
      substring test. */
  predicate ContainsIgnoringCase(s: string, pat: string) {
    Contains(Lower(s), Lower(pat))
  }

  predicate IsDigit(c: char) {
    '0' <= c <= '9'
  }

  predicate AllDigits(s: string) {
    forall k :: 0 <= k < |s| ==> IsDigit(s[k])
  }

  function DigitChar(d: nat): (c: char)
    requires d < 10
    ensures IsDigit(c)
  {
    ('0' as int + d) as char
  }

  /** The value of a string of decimal digits. */
  function DigitsValue(ds: string): nat
    requires AllDigits(ds)
    decreases |ds|
  {
    if |ds| == 0 then 0
    else DigitsValue(ds[..|ds| - 1]) * 10 + (ds[|ds| - 1] as int - '0' as int)
  }

  /** The decimal digits of `n`, without leading zeros. */
  function NatToDigits(n: nat): (r: string)
    ensures |r| >= 1 && AllDigits(r)
  {
    if n < 10 then [DigitChar(n)] else NatToDigits(n / 10) + [DigitChar(n % 10)]
  }

  /** `i64::to_string` / `i32::to_string`. */
  function IntToString(n: int): string {
    if n < 0 then "-" + NatToDigits(-n) else NatToDigits(n)
  }

  const I32Min: int := -0x8000_0000
  const I32Max: int := 0x7FFF_FFFF

  /** `s` is an optional `+` or `-` followed by one or more ASCII digits,
      and spells the number `v`. */
  predicate Denotes(s: string, v: int) {
    || (|s| > 0 && AllDigits(s) && v == DigitsValue(s))
    || (|s| > 1 && s[0] == '+' && AllDigits(s[1..]) && v == DigitsValue(s[1..]))
    || (|s| > 1 && s[0] == '-' && AllDigits(s[1..]) && v == 0 - DigitsValue(s[1..]))
  }

  /** `str::parse::<i32>`: the number `s` spells, when it spells one that
      fits in 32 bits, and nothing otherwise. */
  function ParseI32(s: string): (r: Option<int>)
    ensures r.Some? ==> Denotes(s, r.value) && I32Min <= r.value <= I32Max
    ensures forall v :: Denotes(s, v) && I32Min <= v <= I32Max ==> r == Some(v)
  {
    if |s| == 0 then None
    else
      var digits := if s[0] == '+' || s[0] == '-' then s[1..] else s;
      if |digits| == 0 || !AllDigits(digits) then None
      else
        var magnitude: int := DigitsValue(digits);
        var v := if s[0] == '-' then -magnitude else magnitude;
        if I32Min <= v <= I32Max then Some(v) else None
  }

  lemma {:induction false} DigitsRoundTrip(n: nat)
    ensures DigitsValue(NatToDigits(n)) == n
    decreases n
  {
    if n >= 10 {
      var ds := NatToDigits(n);
      DigitsRoundTrip(n / 10);
      assert ds[..|ds| - 1] == NatToDigits(n / 10);
    }
  }

  /** Rendering an `i32` and parsing it back gives the same number. */
  lemma ParseRendersBack(n: int)
    requires I32Min <= n <= I32Max
    ensures ParseI32(IntToString(n)) == Some(n)
  {
    if n < 0 {
      NegativeParsesBack(n);
    } else {
      DigitsRoundTrip(n);
    }
  }

  lemma NegativeParsesBack(n: int)
    requires I32Min <= n < 0
    ensures ParseI32(IntToString(n)) == Some(n)
  {
    var d := NatToDigits(-n);
    var s := IntToString(n);
    assert s == "-" + d;
    assert s[1..] == d;
    DigitsRoundTrip(-n);
    SignedParse(s, d);
  }

  /** A minus sign followed by digits parses to the negated digit value,
      when it fits. */
  lemma SignedParse(s: string, d: string)
    requires s == "-" + d && |d| > 0 && AllDigits(d)
    requires DigitsValue(d) <= -I32Min
    ensures ParseI32(s) == Some(0 - DigitsValue(d))
  {
    assert s[0] == '-' && s[1..] == d;
  }
}
